=== FILE: README.md ===
# WebSocket frame layer of the Photon TLS demo clients

The repository's demo clients talk to a market-data WebSocket server over TLS.
Each hand-writes its own piece of the frame layer of section 5.2 of RFC 6455, and they do not all hold the same pieces:

- **client_tls_1_thread_multiple_socket.cpp and client_tls_2_thread.cpp** each contain a complete receive loop. The loop keeps a receive buffer, decodes frames at its head and reassembles fragmented messages (section 5.4 of RFC 6455). It answers Pings and stops at a Close (section 5.5 of RFC 6455). These two clients also hold the Text-frame builder `send_websocket_frame` and the Pong builder `send_pong_frame`.
- **client_tls.cpp** holds the same two builders and a one-shot parser, `parse_websocket_frame`. Its main loop never calls that parser: it only receives and logs.
- **clientWSS.cpp** parses one frame per read with `parse_ws_frame`, with no buffer across reads, no reassembly and no Close handling. It holds a Text framer for payloads of at most 125 bytes, `send_ws_text`, and the price search `extract_price`.

This project models each of these pieces as written and proves what it does.

- **`Bytes`** (bytes.dfy): bytes as unsigned values and the big-endian reading of length bytes.
- **`FrameCodec`** (frame_codec.dfy) holds the shared pieces:
  - the header decode of the two receive loops (`Decode`);
  - the unmasked frame builders `send_websocket_frame` and `send_pong_frame` (`TextFrame`, `PongFrame`);
  - the round trip between them.
- **`Reassembly`** (reassembly.dfy): the fragment state machine that both receive loops share (`Reassemble`).
- **`MultiSocket`** (multi_socket.dfy): client_tls_1_thread_multiple_socket.cpp.
  - The registry is a `map<int, Conn>` keyed by socket descriptor.
  - It models `process_websocket_frame` (`ProcessFrame`).
  - It models one `handle_socket_data` call (`HandleSocketData`): append one read, decode and dispatch frames from the buffer head, erase the consumed prefix, clear the buffer past 16384 bytes.
- **`EventLoop`** (event_loop.dfy): the `run()` dispatch over an abstract sequence of `epoll_wait` results.
- **`StreamHandler`** (stream_handler.dfy): the receive loop inside `websocket_handler` of client_tls_2_thread.cpp.
- **`BlockingClient`** (blocking_client.dfy): `parse_websocket_frame` of client_tls.cpp.
- **`WssClient`** (wss_client.dfy): the helpers of clientWSS.cpp, namely `parse_ws_frame`, `send_ws_text` and `extract_price`.

The model follows the code, not the RFC:

- **Outbound frames are not masked**, as in the code; section 5.3 of RFC 6455 requires client frames to be masked.
- **`send_pong_frame` writes the length as one byte.** A Ping of 126 payload bytes, which its 128-byte buffer still holds, is answered with the byte 126, which is the 16-bit escape, and no length bytes behind it (`PongFrame`).
- **A masked inbound header is skipped by two bytes.** Its masking key and payload are then read as further frames.
- **The 16-bit extended length is read through a signed `char`.**
  - The receive loops sign-extend the high byte. A well-formed frame of 0x8000 to 0xFFFF payload bytes is therefore never delivered: once its four header bytes are buffered the decode asks for more bytes however much of it follows, and for the top four lengths the length sum wraps instead (`MidLengthFrameNeverCompletes`, `MidLengthPrefixNeverCompletes`). The loops never hold such a frame whole: a read brings at most 4096 bytes into a buffer kept within 16384 (`MidLengthFrameNeverWhole`). The frame waits at the buffer head until more than 16384 bytes are buffered, and the buffer and the reassembly state are then cleared (`MultiSocket.MidLengthFrameDiscarded`, `StreamHandler.MidLengthFrameDiscarded`). The reads that follow bring the rest of that payload, which is decoded from an empty buffer as fresh frames: it may print, answer Pings, or, in the multi-socket client, erase the connection at bytes that read as a Close (`MultiSocket.MidLengthTailReadAsFrames`, `StreamHandler.MidLengthTailReadAsFrames`).
  - `parse_websocket_frame` sign-extends both bytes. A frame whose low length byte is 0x80 or more never parses: it is refused, or, from a low byte of 252 on, the length sum wraps and the copy is undefined (`LowByteSignExtensionRefuses`).
  - Where the bytes are below 0x80, the readings agree with RFC 6455 (`DeclaredLengthExact`, `ParseAgreesWithDecode`).
- **Undefined behaviour is an explicit outcome**, not a precondition:
  - the receive loops' payload copy after the 64-bit sum `header_len + payload_len` wraps. The wrap itself is defined, but it lets the length check pass, and the copy then runs past the buffer (`Decoded.LengthWraps`, `ScanEnd.Undefined`);
  - a Ping of more than 126 payload bytes overrunning `send_pong_frame`'s 128-byte buffer (`Dispatch.PongOverflow`);
  - the same copy past the buffer in `parse_websocket_frame` after its length sum wraps (`Parsed.ParseUndefined`).

  The receive-side operations are therefore total over their inputs. The preconditions left are on the sending and search side, each listed under "Left out": `TextFrame` takes at most 4092 payload bytes, `PongFrame` at most 126, `EncodeLength` and `EncodeFrame` lengths below 2^64, and `ExtractPrice` text without a NUL.

The two receive loops differ in two ways:

- On a Close frame, the multi-socket client erases the connection. The two-thread client only ends the pass and leaves the frame at the head of its buffer.
- A failed Pong send is only logged by the multi-socket client. It ends the two-thread client's pass in front of the Ping.

`PassAgreesWithScan` proves the two loops otherwise identical.

In the multi-socket client, `connected` is set before a connection is registered (client_tls_1_thread_multiple_socket.cpp:226). It is cleared only by a Close frame, after which the entry is erased at once. `RegistryHealthy` states this invariant, and every registry operation preserves it. `Scan` still takes the flag: `handle_socket_data` checks it after every dispatched frame, and the model does the same.

## Model

| member | source | states |
|---|---|---|
| `Bytes.BigEndian` | client_tls_1_thread_multiple_socket.cpp:350-356 | the value accumulated by the `(len << 8) \| byte` loop over k bytes is below 256^k |
| `Bytes.ToBigEndian` | client_tls_1_thread_multiple_socket.cpp:249-251 | the encoder's loop writes exactly k bytes, the last of them the low byte of the length |
| `Bytes.BigEndianRoundTrip` | client_tls_1_thread_multiple_socket.cpp:248-251 | the eight length bytes `(len >> 8i) & 0xFF` written by the encoder read back through the decoder's accumulation loop as the original length, for every length that fits |
| `FrameCodec.Decode` | client_tls_1_thread_multiple_socket.cpp:327-366 | a header is skipped as masked exactly when two bytes are present and its mask bit is set; a complete frame spans at least its 2-byte header and never more than the bytes present |
| `FrameCodec.DecodeOutcome` | client_tls_1_thread_multiple_socket.cpp:328-361 | the decode waits with fewer than 2 bytes, with fewer than 4 after length field 126, with fewer than 10 after 127, and exactly while fewer than header plus declared payload bytes are present; it fails exactly when that sum overflows 64 bits; a complete frame carries the FIN bit, the low opcode nibble and exactly the declared payload bytes after the header |
| `FrameCodec.DeclaredLengthExact` | client_tls_1_thread_multiple_socket.cpp:345-357 | a 7-bit length is taken as is; 127 gives the 64-bit big-endian value of bytes 2..9; 126 gives the big-endian value of bytes 2..3 when the high byte is below 0x80 and that value plus 2^64 - 2^16 when it is not (sign extension) |
| `FrameCodec.DecodeExtends` | client_tls_1_thread_multiple_socket.cpp:359-361 | once the bytes at the head decide anything but "wait", more bytes behind them do not change the decision, the frame or its size |
| `FrameCodec.EncodeLength` | client_tls_1_thread_multiple_socket.cpp:241-252 | the length encoding is minimal: one byte exactly for lengths up to 125, the 126 escape exactly for 126..65535, otherwise 127; the escape bytes read back big-endian as the length, and the encoding has the size the decoder's header rule expects, mask bit clear |
| `FrameCodec.EncodeFrame` | client_tls_1_thread_multiple_socket.cpp:237-256 | a built frame starts with the given first byte, ends with the payload unchanged and unmasked, and is exactly header plus payload long |
| `FrameCodec.TextFrame` | client_tls_2_thread.cpp:73-92 | `send_websocket_frame` fits its 4096-byte buffer; it is 0x81, the length byte and the payload up to 125 bytes, and 0x81, 126, the two big-endian length bytes and the payload above |
| `FrameCodec.PongFrame` | client_tls_2_thread.cpp:63-71 | up to 125 payload bytes `send_pong_frame` builds exactly the RFC 6455 encoding of a final Pong; at 126 it writes the 16-bit escape 126 with no length bytes, so it differs from that encoding and a receiver takes the first two payload bytes, sign-extended, for the length |
| `FrameCodec.DecodeEncodedFrame` | client_tls_1_thread_multiple_socket.cpp:237-366 | round trip: an encoded frame followed by any bytes decodes to the same FIN bit, opcode and payload and consumes exactly the frame, for every length outside the sign-extended range 0x8000..0xFFFF and below 2^64 - 10, from where the header-plus-length sum wraps |
| `FrameCodec.TextFrameRoundTrip` | client_tls_2_thread.cpp:73-92 | every payload `send_websocket_frame` accepts decodes back as one final Text frame with that payload, consuming the whole frame |
| `FrameCodec.PongFrameRoundTrip` | client_tls_2_thread.cpp:63-71 | a Pong of at most 125 payload bytes decodes back as a final Pong with the same payload |
| `FrameCodec.MidLengthFrameNeverCompletes` | client_tls_1_thread_multiple_socket.cpp:347-348 | a well-formed frame of 0x8000..0xFFFF payload bytes is never delivered: even with the whole frame present the decode asks for more bytes, or for the top four lengths reports the 64-bit wrap |
| `FrameCodec.MidLengthPrefixNeverCompletes` | client_tls_1_thread_multiple_socket.cpp:345-361 | the same for every prefix of the stream holding the four header bytes of such a frame: the decode waits at the header, or reports the wrap from 0xFFFC on, however much of the payload follows |
| `Reassembly.Reassemble` | client_tls_1_thread_multiple_socket.cpp:269-290 | a final Text frame is printed and a final Binary frame dropped, both leaving a partial message alone; an opening frame records opcode and payload, replacing any partial message; a Continuation appends; the final one prints the whole message only when it was opened as Text and resets to idle; an orphan Continuation changes nothing; the reachable states are preserved |
| `Reassembly.FeedContinuations` | client_tls_2_thread.cpp:233-237 | a run of non-final Continuations only extends the message in progress by their concatenation and prints nothing |
| `Reassembly.FragmentedMessage` | client_tls_2_thread.cpp:221-245 | an opening frame, any number of Continuations and a final one print, from any state, exactly the concatenation of all fragments when opened as Text and nothing when Binary, and end idle |
| `MultiSocket.ProcessFrame` | client_tls_1_thread_multiple_socket.cpp:268-305 | data frames go to the reassembler; a Ping is answered with exactly one frame 0x8A, length, identical payload; a Close and only a Close disconnects; Pong and unknown opcodes do nothing; control frames never touch a partial message; a Ping over 126 bytes is the buffer overrun |
| `MultiSocket.Scan` | client_tls_1_thread_multiple_socket.cpp:327-376 | the cursor never passes the end of the buffer, and the reachable reassembly states are preserved across a pass |
| `MultiSocket.ScanStopsAtIncompleteFrame` | client_tls_1_thread_multiple_socket.cpp:359-361 | a pass that ends with the connection kept ends exactly in front of a frame that is not yet complete |
| `MultiSocket.Consume` | client_tls_1_thread_multiple_socket.cpp:322-381 | after a pass the buffer is the old buffer followed by the new bytes with exactly the processed prefix removed, in order, and the processed count never exceeds that buffer; only buffer and reassembly state change |
| `MultiSocket.ConsumeLeavesIncompleteFrame` | client_tls_1_thread_multiple_socket.cpp:379-381 | what a pass leaves in the buffer starts with a frame that is not yet complete |
| `MultiSocket.HandleSocketData` | client_tls_1_thread_multiple_socket.cpp:307-391 | an unknown descriptor changes nothing; a failed read erases exactly that entry; otherwise no other entry changes, no entry is added, the surviving entry has its clock set and a buffer within the ceiling, and registry health is kept |
| `MultiSocket.ScanAppend` | client_tls_1_thread_multiple_socket.cpp:327-376 | a pass over w + x is a pass over w followed by a pass over what w left plus x; a pass over w that erased the connection or overflowed does the same on w + x |
| `MultiSocket.ConsumeAppend` | client_tls_1_thread_multiple_socket.cpp:322-381 | one pass over two chunks equals a pass over the first followed by a pass over the second from the state the first left |
| `MultiSocket.SplitReads` | client_tls_1_thread_multiple_socket.cpp:307-391 | two reads handled one after the other print, send, erase and leave exactly what one read of the concatenated bytes does, unless the first pass hit the buffer ceiling |
| `MultiSocket.PingAnswered` | client_tls_1_thread_multiple_socket.cpp:291-296 | a Ping alone in the buffer is answered by exactly one Pong with the identical payload; a connected entry only has its buffer emptied and its clock set |
| `MultiSocket.CloseFrameEvicts` | client_tls_1_thread_multiple_socket.cpp:368-373 | a Close frame at the head erases exactly that entry, and nothing behind it in the buffer is processed |
| `MultiSocket.MidLengthFrameNeverWhole` | client_tls_1_thread_multiple_socket.cpp:312-323 | a buffer within the ceiling plus one read into the 4096-byte `temp_buf` is shorter than any frame of 0x8000 payload bytes or more, so it never holds such a frame whole |
| `MultiSocket.MidLengthFrameDiscarded` | client_tls_1_thread_multiple_socket.cpp:345-390 | once the header of a frame of 0x8000..0xFFFB payload bytes is buffered, a read dispatches nothing and keeps the entry: the buffered bytes wait while within the ceiling, and past it the buffer and the reassembly state are cleared; from 0xFFFC on the pass is undefined |
| `MultiSocket.MidLengthTailReadAsFrames` | client_tls_1_thread_multiple_socket.cpp:322-390 | after that clear, the next read, holding more of the frame's payload, is handled exactly as on an empty buffer with no message in progress; payload bytes 0x88 0x00 at its head read as a Close and erase the entry |
| `MultiSocket.MaskedHeaderSkipped` | client_tls_1_thread_multiple_socket.cpp:339-343 | a masked header advances the cursor by exactly two bytes, dispatches nothing and keeps the connection |
| `EventLoop.PingReachesEveryEntry` | client_tls_1_thread_multiple_socket.cpp:393-402 | in a healthy registry, where `connected` was set before registration and is only cleared on the way to erasure, the periodic ping reaches every registered entry |
| `EventLoop.PingFrameEncoded` | client_tls_1_thread_multiple_socket.cpp:394 | the ping bytes are the unmasked empty Ping frame and decode as one |
| `EventLoop.Batch` | client_tls_1_thread_multiple_socket.cpp:435-459 | handling events never adds an entry, keeps every entry healthy, and cannot stop for shutdown unless the shutdown descriptor fired |
| `EventLoop.HangupEvictsOnlyThatEntry` | client_tls_1_thread_multiple_socket.cpp:445-454 | an error or hang-up event erases its own entry and leaves every other entry unchanged |
| `EventLoop.BatchAppend` | client_tls_1_thread_multiple_socket.cpp:435-459 | events are handled strictly in order: a batch split in two is the second part run on the registry the first left |
| `EventLoop.ShutdownStopsBatch` | client_tls_1_thread_multiple_socket.cpp:439-443 | once the shutdown descriptor fires, no later event is looked at |
| `EventLoop.Run` | client_tls_1_thread_multiple_socket.cpp:418-469 | the loop never adds an entry and keeps the registry healthy; it ends as drained only with no entry left, and returns at once on an empty registry |
| `EventLoop.TimeoutPingsEveryEntry` | client_tls_1_thread_multiple_socket.cpp:426-432 | a timeout pings every registered entry, restarts the ping clock and changes no entry |
| `EventLoop.RunAppend` | client_tls_1_thread_multiple_socket.cpp:418-469 | the loop is a fold over wake-ups: feeding them in two parts continues from the registry and ping clock the first part left |
| `StreamHandler.Pass` | client_tls_2_thread.cpp:173-263 | the cursor never passes the end of the buffer and the reachable reassembly states are preserved |
| `StreamHandler.PassHaltsAtHead` | client_tls_2_thread.cpp:210-256 | the pass halts only in front of an incomplete frame, a Close frame or a Ping, which it leaves unconsumed at the cursor |
| `StreamHandler.Receive` | client_tls_2_thread.cpp:161-277 | after a pass the buffer is the old buffer plus the read minus exactly the processed prefix, or empty with reassembly reset when more than 16384 bytes remain; it never exceeds the ceiling |
| `StreamHandler.Handler` | client_tls_2_thread.cpp:160-278 | across reads the buffer stays within the ceiling and reassembly in a reachable state, and a failed read ends the handler |
| `StreamHandler.TextFrameDelivered` | client_tls_2_thread.cpp:221-228 | a Text frame built by `send_websocket_frame` arriving on an empty buffer is printed whole and consumed whole |
| `StreamHandler.CompleteTextFrameDelivered` | client_tls_2_thread.cpp:221-228 | any complete final Text frame arriving alone on an empty buffer is printed with exactly its payload and consumed whole, and the reassembly state, with any message in progress, is untouched |
| `StreamHandler.MidLengthFrameDiscarded` | client_tls_2_thread.cpp:195-277 | once the header of a frame of 0x8000..0xFFFB payload bytes is buffered, a read dispatches nothing: the buffered bytes wait while within the ceiling, and past it the buffer and the reassembly state are cleared; from 0xFFFC on the pass is undefined |
| `StreamHandler.MidLengthTailReadAsFrames` | client_tls_2_thread.cpp:160-277 | after that clear, the reads that bring the rest of the payload are handled exactly as by a handler just started, so payload bytes are decoded as frames |
| `StreamHandler.CompleteBinaryFrameDropped` | client_tls_2_thread.cpp:221-228 | any complete final Binary frame arriving alone on an empty buffer is consumed whole, prints and sends nothing, and leaves the reassembly state untouched |
| `StreamHandler.BinaryFrameDropped` | client_tls_2_thread.cpp:221-228 | a complete Binary frame arriving on an empty buffer, of any length the decode reads correctly (empty and both extended encodings included), is consumed whole and nothing is printed |
| `StreamHandler.CloseFrameStaysAtHead` | client_tls_2_thread.cpp:254-256 | a Close frame at the head ends the pass unconsumed, keeps the connection and stays at the buffer head |
| `StreamHandler.FailedPongKeepsPing` | client_tls_2_thread.cpp:246-251 | a failed Pong send ends the pass in front of its Ping, which stays at the buffer head |
| `StreamHandler.MaskedHeaderSkipped` | client_tls_2_thread.cpp:188-192 | a masked header advances the cursor by two bytes with nothing dispatched |
| `StreamHandler.PassAgreesWithScan` | client_tls_2_thread.cpp:173-263 | with every Pong sent, the two-thread loop consumes, dispatches and reassembles exactly as the multi-socket loop; where the latter erases the connection at a Close, the former stops in front of that Close |
| `BlockingClient.ParseWebSocketFrame` | client_tls.cpp:47-68 | false for fewer than 2 bytes, fewer than 4 after 126, fewer than 10 after 127, fewer than header plus payload bytes when that sum does not wrap, or FIN clear; the copy is undefined exactly when FIN is set and the sum reaches 2^64; in every remaining case, FIN set and all bytes present, it succeeds with `buf[0] & 0x0F` and exactly the declared payload bytes after the header |
| `BlockingClient.BothSignExtendedLength16` | client_tls.cpp:55 | with both length bytes below 0x80 the 16-bit length is the RFC value; a low byte of 0x80 or more makes it at least 2^64 - 128, whatever the high byte |
| `BlockingClient.MaskBitIgnored` | client_tls.cpp:51-52 | flipping the mask bit never changes the result: it is not inspected and adds no key bytes |
| `BlockingClient.ParseAgreesWithDecode` | client_tls.cpp:52-65 | where the 16-bit length bytes are below 0x80, the parser succeeds exactly when the receive-loop decode finds a complete frame with FIN set, with the same opcode and payload |
| `BlockingClient.ParseTextFrame` | client_tls.cpp:89-112 | round trip: a frame from `send_websocket_frame` parses back as Text with the same payload, whenever the length is at most 125 or its low byte is below 0x80 |
| `BlockingClient.LowByteSignExtensionRefuses` | client_tls.cpp:55 | a Text frame of 126..4092 bytes whose length has a low byte of 0x80 or more never parses: it is refused, or from low byte 252 on the length sum wraps into undefined behaviour |
| `WssClient.ParseWsFrame` | clientWSS.cpp:246-266 | -1 below 2 bytes; 0 exactly for a final Text frame whose 7-bit length fits the bytes after the header, 1 exactly for such a Ping, with exactly those payload bytes from offset 2; -1 otherwise |
| `WssClient.ExtendedLengthTakenLiterally` | clientWSS.cpp:249-258 | length 126 or 127 is a payload of that many bytes, not an escape |
| `WssClient.ParseWsAgreesWithDecode` | clientWSS.cpp:246-266 | on unmasked final Text or Ping frames with a 7-bit length, the parser accepts exactly what the receive-loop decode finds complete, with the same payload |
| `WssClient.WsTextFrame` | clientWSS.cpp:228-237 | no frame for more than 125 bytes; otherwise exactly the frame `send_websocket_frame` builds for the same data |
| `WssClient.SendWsTextWritesFrame` | clientWSS.cpp:228-243 | success means exactly that the frame could be built and the stream took every byte of it |
| `WssClient.WsTextFrameIsTextFrame` | clientWSS.cpp:229-236 | within 125 bytes `send_ws_text` builds the same bytes as `send_websocket_frame` |
| `WssClient.WsTextRoundTrip` | clientWSS.cpp:228-266 | round trip: `parse_ws_frame` of the `send_ws_text` frame, followed by anything, returns 0 with the original data |
| `WssClient.IndexOf` | clientWSS.cpp:271 | the search returns the first occurrence of the key at or after the start, or reports that there is none |
| `WssClient.ExtractPrice` | clientWSS.cpp:269-282 | a price is only ever the text between the first `"p":"` and the next `"`, under 32 characters and quote-free; no key gives no price |
| `WssClient.ExtractPriceComplete` | clientWSS.cpp:272-281 | conversely, when the first key is followed by a closing quote, a value under 32 characters is returned and a longer one refused; with no closing quote nothing is returned |

## Left out

- TLS, sockets, DNS resolution, the HTTP upgrade handshake, the subscription request strings, `epoll`/`eventfd` system calls, Photon threads and sleeps: foreign I/O. Reads are sequences of bytes, `epoll_wait` results are a sequence of `Wait` values, and the clock is a parameter `now`.
- Logging, `printHex` and `std::cout`: printing a complete Text message is the `Print` effect; the rest is dropped.
- Results of sends: frames handed to the transport are `Send` effects. The multi-socket client only logs a failed send. The two-thread client's failed Pong send is modelled through `Delivery.pongFails`, because it ends the pass.
- `connect_websocket`, the latency statistics loop, `main`, demo.cpp (commented out), client.cpp, server.cpp and python_server.py: plumbing outside the frame layer.
- Client-side masking and reconnection: the code does neither.
- The 4096-byte `temp_buf` and the 32-event `epoll_wait` bound: reads and batches may be of any size. This makes most statements more general. `MidLengthFrameNeverWhole` states the read bound where it matters. `MidLengthFrameNeverCompletes`, and the whole-frame case of the two `MidLengthFrameDiscarded` lemmas, describe a buffer reachable only with a read larger than the code makes. `MidLengthPrefixNeverCompletes` and the prefix cases of those lemmas cover what the code does.
- `FrameCodec.PongFrame` requires the frame to fit the 128-byte stack buffer (at most 126 payload bytes). A longer Ping is not built but reported by `MultiSocket.ProcessFrame` as `PongOverflow`.
- `FrameCodec.EncodeLength` and `FrameCodec.EncodeFrame` require lengths below 2^64: the code's `len` is a 64-bit `size_t`, so no longer length exists.
- `FrameCodec.TextFrame` requires the payload to fit the 4096-byte stack buffer (at most 4092 bytes). A longer payload overruns the buffer in the code, and that overrun is not modelled.
- `BlockingClient.ParseWebSocketFrame` does not model the `opcode` out-parameter, which the code writes once the two-byte check has passed, even when a later check fails. It also does not model the `payload` string assigned on success, beyond its bytes.
- `WssClient.ParseWsFrame` does not model the NUL terminator written after a Text payload, or the size of the caller's `payload` buffer.
- `WssClient.ExtractPrice` requires the text to contain no NUL character: it models the characters of a C string before its terminator. It returns the value itself, not the address of the shared `static char price[32]`.
- The read loop inside clientWSS.cpp's `wss_client`, including its inline Pong reply and the JSON tests around `extract_price`: it is I/O plumbing around the three modelled helpers.
- `parse_websocket_frame` is never called by client_tls.cpp's main loop, which only receives and logs. Its model stands alone.
- `EventLoop.Run` takes a finite sequence of wake-ups and reports `OutOfWaits` when they run out. The code waits forever.

=== FILE: blocking_client.dfy ===
/**
 * The one-shot frame parser `parse_websocket_frame` of the blocking
 * client (client_tls.cpp). Unlike the receive loops it never looks at
 * the mask bit, refuses a frame whose FIN bit is clear, and reads both
 * bytes of the 16-bit extended length as signed `char`s.
 */
module BlockingClient {
  import opened Bytes
  import opened FrameCodec

  /** The `bool` result with the `payload` and `opcode` out-parameters it fills on success. */
  datatype Parsed =
    | Parsed(opcode: nibble, payload: seq<byte>)
    | Rejected          // `return false`
    | ParseUndefined    // the payload copy reads past the buffer

  /**
   * `(static_cast<uint64_t>(buf[2]) << 8) | buf[3]` with both operands
   * sign-extended: a low byte of 0x80 or more sets every bit above its
   * own, whatever the high byte; otherwise only the high byte's sign
   * matters, as in the receive loops.
   */
  function BothSignExtendedLength16(hi: byte, lo: byte): (n: nat)
    ensures hi < 0x80 && lo < 0x80 ==> n == hi * 256 + lo
    ensures lo >= 0x80 ==> n >= TwoTo64 - 0x80
  {
    if lo >= 0x80 then TwoTo64 - 0x100 + lo else SignExtendedLength16(hi, lo)
  }

  /** The payload length `parse_websocket_frame` computes, once the header is present. */
  function ParsedLength(buf: seq<byte>): nat
    requires |buf| >= 2 && |buf| >= HeaderLength(buf[1])
  {
    var l := LengthField(buf[1]);
    if l == 126 then BothSignExtendedLength16(buf[2], buf[3])
    else if l == 127 then BigEndian(buf[2..10])
    else l
  }

  /**
   * `parse_websocket_frame(buf, len, payload, opcode)`. The comparison
   * `len < header_len + payload_len` is made on the 64-bit sum; when it
   * wraps the comparison passes, so a frame with FIN set goes on to copy
   * `payload_len` bytes and the behaviour is undefined.
   */
  function ParseWebSocketFrame(buf: seq<byte>): (r: Parsed)
    ensures |buf| < 2 ==> r == Rejected
    ensures |buf| >= 2 && LengthField(buf[1]) == 126 && |buf| < 4 ==> r == Rejected
    ensures |buf| >= 2 && LengthField(buf[1]) == 127 && |buf| < 10 ==> r == Rejected
    ensures |buf| >= 2 && !FinBit(buf[0]) ==> r == Rejected
    ensures r.Parsed? ==>
              && |buf| >= 2
              && FinBit(buf[0])
              && r.opcode == OpcodeOf(buf[0])
              && HeaderLength(buf[1]) + |r.payload| <= |buf|
              && |r.payload| == ParsedLength(buf)
              && r.payload == buf[HeaderLength(buf[1])..HeaderLength(buf[1]) + |r.payload|]
    ensures r.Parsed? && LengthField(buf[1]) < 126 ==> |r.payload| == LengthField(buf[1])
    // a buffer shorter than header plus payload is refused, unless that sum wraps
    ensures && |buf| >= 2 && |buf| >= HeaderLength(buf[1])
            && HeaderLength(buf[1]) + ParsedLength(buf) < TwoTo64
            && |buf| < HeaderLength(buf[1]) + ParsedLength(buf)
            ==> r == Rejected
    // the wrapped sum slips past the length check; with FIN set the copy runs past the buffer
    ensures r.ParseUndefined? <==>
              |buf| >= 2 && |buf| >= HeaderLength(buf[1]) && FinBit(buf[0])
              && HeaderLength(buf[1]) + ParsedLength(buf) >= TwoTo64
    // every other frame with FIN set and all its bytes present is parsed
    ensures && |buf| >= 2 && |buf| >= HeaderLength(buf[1]) && FinBit(buf[0])
            && HeaderLength(buf[1]) + ParsedLength(buf) < TwoTo64
            && HeaderLength(buf[1]) + ParsedLength(buf) <= |buf|
            ==> r == Parsed(OpcodeOf(buf[0]), buf[HeaderLength(buf[1])..HeaderLength(buf[1]) + ParsedLength(buf)])
  {
    if |buf| < 2 then Rejected
    else if |buf| < HeaderLength(buf[1]) then Rejected
    else
      var h := HeaderLength(buf[1]);
      var len := ParsedLength(buf);
      if h + len >= TwoTo64 then (if FinBit(buf[0]) then ParseUndefined else Rejected)
      else if |buf| < h + len || !FinBit(buf[0]) then Rejected
      else Parsed(OpcodeOf(buf[0]), buf[h..h + len])
  }

  /** The second header byte with its mask bit flipped. */
  function FlipMask(b1: byte): (b: byte)
    ensures MaskBit(b) == !MaskBit(b1) && LengthField(b) == LengthField(b1)
  {
    if b1 >= 0x80 then b1 - 0x80 else b1 + 0x80
  }

  /** The mask bit is never inspected: flipping it changes nothing. */
  lemma MaskBitIgnored(buf: seq<byte>)
    requires |buf| >= 2
    ensures ParseWebSocketFrame(buf[1 := FlipMask(buf[1])]) == ParseWebSocketFrame(buf)
  {
    var b := buf[1 := FlipMask(buf[1])];
    assert HeaderLength(b[1]) == HeaderLength(buf[1]);
    if |buf| >= HeaderLength(buf[1]) {
      if LengthField(buf[1]) == 127 {
        assert b[2..10] == buf[2..10];
      }
      assert ParsedLength(b) == ParsedLength(buf);
      var h := HeaderLength(buf[1]);
      var n := h + ParsedLength(buf);
      if n <= |buf| {
        assert b[h..n] == buf[h..n];
      }
    }
  }

  /**
   * Where the 16-bit length bytes are both below 0x80, the parser and
   * the receive loops' decode agree on every unmasked buffer: the parser
   * succeeds exactly when the decode finds a complete frame with FIN set,
   * and then hands on the same opcode and payload.
   */
  lemma ParseAgreesWithDecode(buf: seq<byte>)
    requires |buf| >= 2 && !MaskBit(buf[1])
    requires LengthField(buf[1]) == 126 && |buf| >= 4 ==> buf[2] < 0x80 && buf[3] < 0x80
    ensures var d := Decode(buf);
            && (ParseWebSocketFrame(buf).Parsed? <==> d.Complete? && d.frame.fin)
            && (d.Complete? && d.frame.fin ==> ParseWebSocketFrame(buf) == Parsed(d.frame.opcode, d.frame.payload))
  {
    DecodeOutcome(buf);
    if |buf| >= HeaderLength(buf[1]) {
      assert ParsedLength(buf) == DeclaredLength(buf);
    }
  }

  /**
   * Round trip: a frame built by `send_websocket_frame` parses back to a
   * Text frame with the same payload, whatever follows it, as long as the
   * payload fits the 7-bit field or the low byte of its 16-bit length is
   * below 0x80.
   */
  lemma ParseTextFrame(payload: seq<byte>, rest: seq<byte>)
    requires |payload| <= TextFrameCapacity - 4
    requires |payload| > 125 ==> |payload| % 256 < 0x80
    ensures ParseWebSocketFrame(TextFrame(payload) + rest) == Parsed(Text, payload)
  {
    var buf := TextFrame(payload) + rest;
    TextFrameRoundTrip(payload, rest);
    ParseAgreesWithDecode(buf);
  }

  /**
   * The low-byte sign extension in action: a Text frame of 126 to 4092
   * bytes whose length has a low byte of 0x80 or more is never parsed.
   * Its length reads as 2^64 - 256 + low byte, so the frame looks
   * impossibly long and is refused, or, from a low byte of 252 on, the
   * length sum wraps and the copy that follows is undefined.
   */
  lemma LowByteSignExtensionRefuses(payload: seq<byte>, rest: seq<byte>)
    requires 125 < |payload| <= TextFrameCapacity - 4
    requires |payload| % 256 >= 0x80
    requires |rest| < TwoTo64 - 0x1_0000
    ensures |payload| % 256 < 252 ==> ParseWebSocketFrame(TextFrame(payload) + rest) == Rejected
    ensures |payload| % 256 >= 252 ==> ParseWebSocketFrame(TextFrame(payload) + rest) == ParseUndefined
  {
    var buf := TextFrame(payload) + rest;
    assert buf[0] == 0x81 && buf[1] == 126;
    assert buf[3] == |payload| % 256;
    assert ParsedLength(buf) == TwoTo64 - 0x100 + |payload| % 256;
  }
}

=== FILE: bytes.dfy ===
/** Small shared vocabulary: an optional value. */
module Wrappers {

  datatype Option<+T> = None | Some(value: T)
}

/**
 * Bytes as the clients keep them in `std::vector<char>` and `char[]`
 * buffers, read as unsigned values 0..255. Where the C++ code reads a
 * `char` as a signed value, the sign extension is written out explicitly
 * by the module that does so.
 */
module Bytes {

  type byte = b: int | 0 <= b < 256

  /** 2^64, the modulus of the clients' `uint64_t` and `size_t` arithmetic. */
  const TwoTo64: nat := 0x1_0000_0000_0000_0000

  function Pow256(k: nat): (r: nat)
    ensures r > 0
  {
    if k == 0 then 1 else 256 * Pow256(k - 1)
  }

  /**
   * Big-endian value of a byte string: the loop
   * `len = (len << 8) | byte` run over the bytes from first to last.
   */
  function BigEndian(s: seq<byte>): (r: nat)
    ensures r < Pow256(|s|)
  {
    if |s| == 0 then 0
    else
      var prefix := BigEndian(s[..|s| - 1]);
      assert prefix * 256 + s[|s| - 1] < Pow256(|s| - 1) * 256 by {
        assert prefix <= Pow256(|s| - 1) - 1;
      }
      prefix * 256 + s[|s| - 1]
  }

  /**
   * The k low-order bytes of n, most significant first: the bytes
   * `(n >> (8 * i)) & 0xFF` for i = k - 1 down to 0.
   */
  function ToBigEndian(n: nat, k: nat): (s: seq<byte>)
    ensures |s| == k
    ensures k > 0 ==> s[k - 1] == n % 256
  {
    if k == 0 then [] else ToBigEndian(n / 256, k - 1) + [n % 256]
  }

  /** Writing n in k bytes and reading it back gives n, whenever n fits. */
  lemma {:induction false} BigEndianRoundTrip(n: nat, k: nat)
    requires n < Pow256(k)
    ensures BigEndian(ToBigEndian(n, k)) == n
  {
    if k > 0 {
      var s := ToBigEndian(n, k);
      assert s[..k - 1] == ToBigEndian(n / 256, k - 1);
      assert n / 256 < Pow256(k - 1);
      BigEndianRoundTrip(n / 256, k - 1);
    }
  }

  /** The two bytes of a 16-bit value read back big-endian. */
  lemma BigEndianTwoBytes(hi: byte, lo: byte)
    ensures BigEndian([hi, lo]) == hi * 256 + lo
  {
    assert [hi, lo][..1] == [hi];
    assert [hi][..0] == [];
  }
}

=== FILE: event_loop.dfy ===
/**
 * The main loop `run()` of the multi-socket client over an abstract
 * `epoll_wait`: each wake-up either was interrupted, failed, timed out
 * (no events) or returned a batch of events. Each event names a
 * descriptor, whether it reported an error or hang-up, whether it is
 * readable, and — for a readable connection — what its one read returns
 * and the clock reading `handle_socket_data` takes.
 */
module EventLoop {
  import opened Bytes
  import opened FrameCodec
  import opened Reassembly
  import opened MultiSocket

  /** One `epoll_event` with what handling it observes. */
  datatype Event = Event(fd: int, hangup: bool, readable: bool, read: ReadOutcome, now: int)

  /** One return of `epoll_wait`, with the clock reading taken after it. */
  datatype Wait =
    | Interrupted                          // `nfds < 0` with `errno == EINTR`
    | WaitFailed                           // any other `nfds < 0`
    | Returned(events: seq<Event>, now: int)   // `nfds >= 0` events; none is the 30 s timeout

  /** An effect of the loop: one connection's effect, or a Ping to a set of connections. */
  datatype LoopEffect = On(fd: int, effect: Effect) | PingAll(fds: set<int>)

  /** `send_ping_to_all`'s frame: FIN, Ping, no payload. */
  const PingFrame: seq<byte> := [0x89, 0x00]

  /** Time between periodic pings, in seconds (`now - last_ping > 120`). */
  const PingInterval: int := 120

  /** The entries `send_ping_to_all` sends to: those still flagged connected. */
  function PingTargets(conns: map<int, Conn>): (fds: set<int>)
    ensures fds <= conns.Keys
    ensures forall fd :: fd in conns ==> (fd in fds <==> conns[fd].connected)
  {
    set fd | fd in conns && conns[fd].connected
  }

  /** The effects of one connection's pass, attributed to its descriptor. */
  function Tagged(fd: int, effs: seq<Effect>): (t: seq<LoopEffect>)
    ensures |t| == |effs|
    ensures forall i :: 0 <= i < |t| ==> t[i] == On(fd, effs[i])
  {
    seq(|effs|, i requires 0 <= i < |effs| => On(fd, effs[i]))
  }

  /** How handling one batch of events ends. */
  datatype BatchEnd =
    | BatchDone(conns: map<int, Conn>, effects: seq<LoopEffect>)
    | ShutdownSeen(conns: map<int, Conn>, effects: seq<LoopEffect>)   // the event descriptor fired: `return`
    | BatchUndefined

  function Prepend(pre: seq<LoopEffect>, b: BatchEnd): BatchEnd
  {
    match b
    case BatchDone(c, effs) => BatchDone(c, pre + effs)
    case ShutdownSeen(c, effs) => ShutdownSeen(c, pre + effs)
    case BatchUndefined => BatchUndefined
  }

  /**
   * The `for (i < nfds)` loop: the shutdown descriptor ends `run()` at
   * once; an error or hang-up erases that descriptor's entry (if any);
   * a readable descriptor gets one `handle_socket_data`; anything else is
   * skipped. Entries are only ever removed or updated, never added, and
   * the health of every entry is kept.
   */
  function Batch(conns: map<int, Conn>, evs: seq<Event>, evfd: int): (b: BatchEnd)
    ensures !b.BatchUndefined? ==> b.conns.Keys <= conns.Keys
    ensures !b.BatchUndefined? && RegistryHealthy(conns) ==> RegistryHealthy(b.conns)
    ensures (forall i :: 0 <= i < |evs| ==> evs[i].fd != evfd) ==> !b.ShutdownSeen?
    decreases |evs|
  {
    if |evs| == 0 then BatchDone(conns, [])
    else
      var ev := evs[0];
      if ev.fd == evfd then ShutdownSeen(conns, [])
      else if ev.hangup then Batch(conns - {ev.fd}, evs[1..], evfd)
      else if ev.readable then
        match HandleSocketData(conns, ev.fd, ev.read, ev.now)
        case HandleUndefined => BatchUndefined
        case Handled(c', effs) => Prepend(Tagged(ev.fd, effs), Batch(c', evs[1..], evfd))
      else Batch(conns, evs[1..], evfd)
  }

  /** Why `run()` returned, or `OutOfWaits` when the supplied wake-ups ran out first. */
  datatype Stop = Drained | Shutdown | WaitError | OutOfWaits

  datatype RunEnd =
    | Ran(stop: Stop, conns: map<int, Conn>, lastPing: int, effects: seq<LoopEffect>)
    | RunUndefined

  function PrependRun(pre: seq<LoopEffect>, r: RunEnd): RunEnd
  {
    match r
    case Ran(s, c, lp, effs) => Ran(s, c, lp, pre + effs)
    case RunUndefined => RunUndefined
  }

  /**
   * The `while (!connections.empty())` loop of `run()` fed the given
   * wake-ups, from the registry the connection phase left and the time of
   * the last ping. A timeout pings every connected entry; after a batch a
   * ping goes out when more than two minutes have passed.
   */
  function Run(conns: map<int, Conn>, evfd: int, lastPing: int, waits: seq<Wait>): (r: RunEnd)
    ensures r.Ran? ==> r.conns.Keys <= conns.Keys
    ensures r.Ran? && RegistryHealthy(conns) ==> RegistryHealthy(r.conns)
    ensures r.Ran? && r.stop == Drained ==> |r.conns| == 0
    ensures |conns| == 0 ==> r == Ran(Drained, conns, lastPing, [])
    decreases |waits|
  {
    if |conns| == 0 then Ran(Drained, conns, lastPing, [])
    else if |waits| == 0 then Ran(OutOfWaits, conns, lastPing, [])
    else
      match waits[0]
      case Interrupted => Run(conns, evfd, lastPing, waits[1..])
      case WaitFailed => Ran(WaitError, conns, lastPing, [])
      case Returned(evs, now) =>
        if |evs| == 0 then
          PrependRun([PingAll(PingTargets(conns))], Run(conns, evfd, now, waits[1..]))
        else
          match Batch(conns, evs, evfd)
          case BatchUndefined => RunUndefined
          case ShutdownSeen(c', effs) => Ran(Shutdown, c', lastPing, effs)
          case BatchDone(c', effs) =>
            if now - lastPing > PingInterval then
              PrependRun(effs + [PingAll(PingTargets(c'))], Run(c', evfd, now, waits[1..]))
            else PrependRun(effs, Run(c', evfd, lastPing, waits[1..]))
  }

  /** The Ping `send_ping_to_all` writes is the unmasked empty Ping frame. */
  lemma PingFrameEncoded()
    ensures PingFrame == EncodeFrame(0x89, [])
    ensures Decode(PingFrame) == Complete(Frame(true, Ping, []), 2)
  {
    DecodeOutcome(PingFrame);
  }

  /** In a healthy registry every entry is connected, so a ping goes to every key. */
  lemma PingReachesEveryEntry(conns: map<int, Conn>)
    requires RegistryHealthy(conns)
    ensures PingTargets(conns) == conns.Keys
  {
    forall fd | fd in conns ensures fd in PingTargets(conns) {
      assert Healthy(conns[fd]);
    }
  }

  /** An error or hang-up event removes exactly its own entry and nothing else. */
  lemma HangupEvictsOnlyThatEntry(conns: map<int, Conn>, ev: Event, evfd: int)
    requires ev.fd != evfd && ev.hangup
    ensures var b := Batch(conns, [ev], evfd);
            && b == BatchDone(conns - {ev.fd}, [])
            && ev.fd !in b.conns
            && forall fd :: fd in conns && fd != ev.fd ==> fd in b.conns && b.conns[fd] == conns[fd]
  {
  }

  lemma PrependPrepend(a: seq<LoopEffect>, b: seq<LoopEffect>, e: BatchEnd)
    ensures Prepend(a, Prepend(b, e)) == Prepend(a + b, e)
  {
    match e
    case BatchDone(c, effs) => assert a + (b + effs) == (a + b) + effs;
    case ShutdownSeen(c, effs) => assert a + (b + effs) == (a + b) + effs;
    case BatchUndefined =>
  }

  /** Handling a batch in two parts: the second part starts from the registry the first left. */
  lemma {:induction false} BatchAppend(conns: map<int, Conn>, a: seq<Event>, b: seq<Event>, evfd: int)
    ensures var first := Batch(conns, a, evfd);
            && (first.BatchDone? ==> Batch(conns, a + b, evfd) == Prepend(first.effects, Batch(first.conns, b, evfd)))
            && (!first.BatchDone? ==> Batch(conns, a + b, evfd) == first)
    decreases |a|
  {
    if |a| == 0 {
      assert a + b == b;
      var e := Batch(conns, b, evfd);
      match e
      case BatchDone(c, effs) => assert [] + effs == effs;
      case ShutdownSeen(c, effs) => assert [] + effs == effs;
      case BatchUndefined =>
    } else {
      var ev := a[0];
      assert (a + b)[0] == ev;
      assert (a + b)[1..] == a[1..] + b;
      if ev.fd == evfd {
      } else if ev.hangup {
        BatchAppend(conns - {ev.fd}, a[1..], b, evfd);
      } else if ev.readable {
        match HandleSocketData(conns, ev.fd, ev.read, ev.now)
        case HandleUndefined =>
        case Handled(c', effs) =>
          BatchAppend(c', a[1..], b, evfd);
          var rest := Batch(c', a[1..], evfd);
          if rest.BatchDone? {
            PrependPrepend(Tagged(ev.fd, effs), rest.effects, Batch(rest.conns, b, evfd));
          }
      } else {
        BatchAppend(conns, a[1..], b, evfd);
      }
    }
  }

  /**
   * The shutdown descriptor ends the batch where it stands: no event
   * after it is looked at, whatever the events are.
   */
  lemma ShutdownStopsBatch(conns: map<int, Conn>, a: seq<Event>, ev: Event, b: seq<Event>, evfd: int)
    requires ev.fd == evfd
    requires forall i :: 0 <= i < |a| ==> a[i].fd != evfd
    ensures var r := Batch(conns, a + [ev] + b, evfd);
            && r == Batch(conns, a + [ev], evfd)
            && (r.BatchUndefined? || r.ShutdownSeen?)
  {
    assert a + [ev] + b == a + ([ev] + b);
    BatchAppend(conns, a, [ev] + b, evfd);
    BatchAppend(conns, a, [ev], evfd);
    var first := Batch(conns, a, evfd);
    if first.BatchDone? {
      assert Batch(first.conns, [ev] + b, evfd) == ShutdownSeen(first.conns, []);
      assert Batch(first.conns, [ev], evfd) == ShutdownSeen(first.conns, []);
    }
  }

  /**
   * A timeout (a wake-up with no events) pings every connected entry,
   * restarts the ping clock and changes no entry.
   */
  lemma TimeoutPingsEveryEntry(conns: map<int, Conn>, evfd: int, lastPing: int, now: int, rest: seq<Wait>)
    requires |conns| > 0 && RegistryHealthy(conns)
    ensures Run(conns, evfd, lastPing, [Returned([], now)] + rest)
         == PrependRun([PingAll(conns.Keys)], Run(conns, evfd, now, rest))
  {
    assert ([Returned([], now)] + rest)[1..] == rest;
    PingReachesEveryEntry(conns);
  }

  lemma PrependRunPrepend(a: seq<LoopEffect>, b: seq<LoopEffect>, r: RunEnd)
    ensures PrependRun(a, PrependRun(b, r)) == PrependRun(a + b, r)
  {
    match r
    case Ran(s, c, lp, effs) => assert a + (b + effs) == (a + b) + effs;
    case RunUndefined =>
  }

  /**
   * Feeding the loop its wake-ups in two parts: when the first part
   * runs out with connections left, the second continues from the
   * registry and ping clock the first left behind.
   */
  lemma {:induction false} RunAppend(conns: map<int, Conn>, evfd: int, lastPing: int, a: seq<Wait>, b: seq<Wait>)
    ensures var first := Run(conns, evfd, lastPing, a);
            && (first.Ran? && first.stop == OutOfWaits ==>
                  Run(conns, evfd, lastPing, a + b) == PrependRun(first.effects, Run(first.conns, evfd, first.lastPing, b)))
            && (!(first.Ran? && first.stop == OutOfWaits) ==> Run(conns, evfd, lastPing, a + b) == first)
    decreases |a|, 1
  {
    if |conns| == 0 {
    } else if |a| == 0 {
      assert a + b == b;
      var e := Run(conns, evfd, lastPing, b);
      if e.Ran? { assert [] + e.effects == e.effects; }
    } else {
      assert (a + b)[0] == a[0];
      assert (a + b)[1..] == a[1..] + b;
      match a[0]
      case Interrupted => RunAppend(conns, evfd, lastPing, a[1..], b);
      case WaitFailed =>
      case Returned(evs, now) =>
        if |evs| == 0 {
          RunAppendStep(conns, evfd, now, [PingAll(PingTargets(conns))], a[1..], b);
        } else {
          match Batch(conns, evs, evfd)
          case BatchUndefined =>
          case ShutdownSeen(c', effs) =>
          case BatchDone(c', effs) =>
            if now - lastPing > PingInterval {
              RunAppendStep(c', evfd, now, effs + [PingAll(PingTargets(c'))], a[1..], b);
            } else {
              RunAppendStep(c', evfd, lastPing, effs, a[1..], b);
            }
        }
    }
  }

  /** The inductive step of `RunAppend` after a wake-up that produced effects `pre`. */
  lemma {:induction false} RunAppendStep(conns: map<int, Conn>, evfd: int, lastPing: int, pre: seq<LoopEffect>, a: seq<Wait>, b: seq<Wait>)
    ensures var first := PrependRun(pre, Run(conns, evfd, lastPing, a));
            && (first.Ran? && first.stop == OutOfWaits ==>
                  PrependRun(pre, Run(conns, evfd, lastPing, a + b)) == PrependRun(first.effects, Run(first.conns, evfd, first.lastPing, b)))
            && (!(first.Ran? && first.stop == OutOfWaits) ==> PrependRun(pre, Run(conns, evfd, lastPing, a + b)) == first)
    decreases |a|, 2
  {
    RunAppend(conns, evfd, lastPing, a, b);
    var inner := Run(conns, evfd, lastPing, a);
    if inner.Ran? && inner.stop == OutOfWaits {
      PrependRunPrepend(pre, inner.effects, Run(inner.conns, evfd, inner.lastPing, b));
    }
  }
}

=== FILE: frame_codec.dfy ===
/**
 * The WebSocket frame layer of section 5.2 of RFC 6455 as the demo
 * clients hand-write it: the header decode run at the head of a receive
 * buffer (client_tls_1_thread_multiple_socket.cpp and
 * client_tls_2_thread.cpp hold the same lines) and the frame builders
 * `send_websocket_frame` and `send_pong_frame` (identical in all three
 * TLS clients). Outbound frames are unmasked, as in the source.
 */
module FrameCodec {
  import opened Bytes

  /** An opcode: the low nibble of the first header byte. */
  type nibble = n: int | 0 <= n < 16

  const Continuation: nibble := 0x0
  const Text: nibble := 0x1
  const Binary: nibble := 0x2
  const Close: nibble := 0x8
  const Ping: nibble := 0x9
  const Pong: nibble := 0xA

  /** A decoded frame as the receive loops hand it on: FIN bit, opcode, payload. */
  datatype Frame = Frame(fin: bool, opcode: nibble, payload: seq<byte>)

  /** `(b0 & 0x80) >> 7` */
  function FinBit(b0: byte): bool { b0 >= 0x80 }

  /** `b0 & 0x0F` (the three reserved bits are never looked at) */
  function OpcodeOf(b0: byte): nibble { b0 % 0x10 }

  /** `(b1 & 0x80) >> 7` */
  function MaskBit(b1: byte): bool { b1 >= 0x80 }

  /** `b1 & 0x7F` */
  function LengthField(b1: byte): nat { b1 % 0x80 }

  /** The header size the 7-bit length field announces: 4 after 126, 10 after 127, else 2. */
  function HeaderLength(b1: byte): nat
  {
    var l := LengthField(b1);
    if l == 126 then 4 else if l == 127 then 10 else 2
  }

  /**
   * The 16-bit extended length as the receive loops compute it:
   * `(static_cast<uint64_t>(buf[2]) << 8) | static_cast<uint8_t>(buf[3])`
   * with `buf` a vector of signed `char`. A high byte of 0x80 or more is
   * sign-extended to 64 bits before the shift, so the shifted value is
   * 2^64 - 2^16 + hi * 256 (modulo 2^64); the low byte is read unsigned
   * and fills the eight bits the shift cleared.
   */
  function SignExtendedLength16(hi: byte, lo: byte): nat
  {
    if hi < 0x80 then hi * 256 + lo else TwoTo64 - 0x1_0000 + hi * 256 + lo
  }

  /** The payload length the header declares, once all of the header is present. */
  function DeclaredLength(w: seq<byte>): nat
    requires |w| >= 2 && |w| >= HeaderLength(w[1])
  {
    var l := LengthField(w[1]);
    if l == 126 then SignExtendedLength16(w[2], w[3])
    else if l == 127 then BigEndian(w[2..10])
    else l
  }

  /** What one iteration of the receive loop makes of the bytes at the cursor. */
  datatype Decoded =
    | NeedMore                        // `break`: wait for the next read
    | Masked                          // mask bit set: `processed += 2; continue`
    | LengthWraps                     // `header_len + payload_len` wraps, the length check passes and the payload copy runs past the buffer: undefined
    | Complete(frame: Frame, size: nat)

  /**
   * Decode the frame at the head of the window `w` (the buffer from the
   * `processed` cursor on). The mask bit is checked before the extended
   * length is read, so a masked header is skipped as soon as two bytes
   * are present.
   */
  function Decode(w: seq<byte>): (r: Decoded)
    ensures r.Masked? <==> |w| >= 2 && MaskBit(w[1])
    ensures r.Complete? ==> 2 <= r.size <= |w|
  {
    if |w| < 2 then NeedMore
    else if MaskBit(w[1]) then Masked
    else if |w| < HeaderLength(w[1]) then NeedMore
    else
      var h := HeaderLength(w[1]);
      var len := DeclaredLength(w);
      if h + len >= TwoTo64 then LengthWraps
      else if |w| < h + len then NeedMore
      else Complete(Frame(FinBit(w[0]), OpcodeOf(w[0]), w[h..h + len]), h + len)
  }

  /**
   * Every outcome of `Decode`: wait while the header is short, skip a
   * masked header, fail when the frame end overflows 64 bits, wait while
   * the payload is short, and otherwise hand on exactly the declared
   * number of payload bytes after the header.
   */
  lemma DecodeOutcome(w: seq<byte>)
    ensures var r := Decode(w);
            && (|w| < 2 ==> r.NeedMore?)
            && (|w| >= 2 && !MaskBit(w[1]) && |w| < HeaderLength(w[1]) ==> r.NeedMore?)
            && (|w| >= 2 && !MaskBit(w[1]) && LengthField(w[1]) == 126 && |w| < 4 ==> r.NeedMore?)
            && (|w| >= 2 && !MaskBit(w[1]) && LengthField(w[1]) == 127 && |w| < 10 ==> r.NeedMore?)
            && (|w| >= 2 && !MaskBit(w[1]) && |w| >= HeaderLength(w[1]) ==>
                  (r.LengthWraps? <==> HeaderLength(w[1]) + DeclaredLength(w) >= TwoTo64))
            && (|w| >= 2 && !MaskBit(w[1]) && |w| >= HeaderLength(w[1]) &&
                HeaderLength(w[1]) + DeclaredLength(w) < TwoTo64 ==>
                  (r.NeedMore? <==> |w| < HeaderLength(w[1]) + DeclaredLength(w)))
            && (r.Complete? ==>
                  && !MaskBit(w[1])
                  && |r.frame.payload| == DeclaredLength(w)
                  && r.size == HeaderLength(w[1]) + |r.frame.payload|
                  && r.frame.fin == FinBit(w[0])
                  && r.frame.opcode == OpcodeOf(w[0])
                  && r.frame.payload == w[HeaderLength(w[1])..r.size])
  {
  }

  /** The declared length is the big-endian value of the length bytes, except for a sign-extended 16-bit high byte. */
  lemma DeclaredLengthExact(w: seq<byte>)
    requires |w| >= 2 && |w| >= HeaderLength(w[1])
    ensures LengthField(w[1]) < 126 ==> DeclaredLength(w) == LengthField(w[1])
    ensures LengthField(w[1]) == 126 && w[2] < 0x80 ==> DeclaredLength(w) == BigEndian(w[2..4])
    ensures LengthField(w[1]) == 126 && w[2] >= 0x80 ==> DeclaredLength(w) == TwoTo64 - 0x1_0000 + BigEndian(w[2..4])
    ensures LengthField(w[1]) == 127 ==> DeclaredLength(w) == BigEndian(w[2..10])
  {
    if LengthField(w[1]) == 126 {
      assert w[2..4] == [w[2], w[3]];
      BigEndianTwoBytes(w[2], w[3]);
    }
  }

  /**
   * Once the bytes at the head decide something other than "wait", more
   * bytes arriving behind them do not change the decision: the basis of
   * the receive loops being insensitive to how the stream is split into
   * reads.
   */
  lemma DecodeExtends(w: seq<byte>, x: seq<byte>)
    requires !Decode(w).NeedMore?
    ensures Decode(w + x) == Decode(w)
  {
    var wx := w + x;
    assert wx[..|w|] == w;
    if !MaskBit(w[1]) {
      var h := HeaderLength(w[1]);
      assert wx[..h] == w[..h];
      if LengthField(w[1]) == 127 {
        assert wx[2..10] == w[2..10];
      }
      assert DeclaredLength(wx) == DeclaredLength(w);
      if Decode(w).Complete? {
        var n := Decode(w).size;
        assert wx[h..n] == w[h..n];
      }
    }
  }

  /**
   * The minimal length encoding `send_websocket_frame` writes after the
   * first byte: the length itself up to 125, then 126 and two big-endian
   * bytes up to 65535, then 127 and eight big-endian bytes.
   */
  function EncodeLength(n: nat): (s: seq<byte>)
    requires n < TwoTo64
    ensures |s| >= 1 && !MaskBit(s[0])
    ensures |s| == HeaderLength(s[0]) - 1
    ensures n <= 125 <==> s == [n]
    ensures 125 < n <= 0xFFFF <==> LengthField(s[0]) == 126
    ensures n > 125 ==> BigEndian(s[1..]) == n
  {
    if n <= 125 then [n]
    else if n <= 0xFFFF then
      var s := [126, n / 256, n % 256];
      BigEndianTwoBytes(n / 256, n % 256);
      assert s[1..] == [n / 256, n % 256];
      s
    else
      PowTwoTo64();
      BigEndianRoundTrip(n, 8);
      var s := [127] + ToBigEndian(n, 8);
      assert s[1..] == ToBigEndian(n, 8);
      s
  }

  lemma PowTwoTo64()
    ensures Pow256(8) == TwoTo64
  {
  }

  /** An unmasked frame: first byte `b0`, minimal length encoding, payload unchanged. */
  function EncodeFrame(b0: byte, payload: seq<byte>): (s: seq<byte>)
    requires |payload| < TwoTo64
    ensures |s| >= 2 && |s| == HeaderLength(s[1]) + |payload|
    ensures s[0] == b0 && s[|s| - |payload|..] == payload
  {
    [b0] + EncodeLength(|payload|) + payload
  }

  /** Size of the `char frame[4096]` buffer `send_websocket_frame` builds into. */
  const TextFrameCapacity: nat := 4096

  /**
   * `send_websocket_frame`: 0x81 (FIN, Text), the minimal length, the
   * payload unmasked. The frame must fit its 4096-byte stack buffer,
   * which bounds the payload to 4092 bytes (the 127 escape never fits).
   */
  function TextFrame(payload: seq<byte>): (s: seq<byte>)
    requires |payload| <= TextFrameCapacity - 4
    ensures 2 <= |s| <= TextFrameCapacity
    ensures s[0] == 0x81
    ensures |payload| <= 125 ==> s == [0x81, |payload|] + payload
    ensures 125 < |payload| ==> s == [0x81, 126, |payload| / 256, |payload| % 256] + payload
  {
    EncodeFrame(0x81, payload)
  }

  /** Size of the `char frame[128]` buffer `send_pong_frame` builds into. */
  const PongFrameCapacity: nat := 128

  /**
   * `send_pong_frame`: 0x8A (FIN, Pong), the length as a single byte
   * `(char)len`, then the payload. The 128-byte buffer holds at most 126
   * payload bytes; there is no extended length. Up to 125 bytes that is
   * the RFC 6455 encoding; at 126 the length byte is the 16-bit escape
   * with no length bytes behind it, so a receiver takes the first two
   * payload bytes for the length.
   */
  function PongFrame(payload: seq<byte>): (s: seq<byte>)
    requires 2 + |payload| <= PongFrameCapacity
    ensures |s| == 2 + |payload| && s[..2] == [0x8A, |payload|] && s[2..] == payload
    ensures |payload| <= 125 ==> s == EncodeFrame(0x8A, payload)
    ensures |payload| == 126 ==>
              && s != EncodeFrame(0x8A, payload)
              && LengthField(s[1]) == 126 && !MaskBit(s[1])
              && DeclaredLength(s) == SignExtendedLength16(payload[0], payload[1])
  {
    [0x8A, |payload|] + payload
  }

  /**
   * Round trip: the receive loops decode an encoded frame, followed by
   * anything, back to its FIN bit, opcode and payload, consuming exactly
   * the frame. Lengths 0x8000..0xFFFF are excluded because the decoder
   * sign-extends their high byte (see `MidLengthFrameNeverCompletes`),
   * and lengths from 2^64 - 10 on because the header-plus-length sum
   * wraps there and the decode reports `LengthWraps`.
   */
  lemma DecodeEncodedFrame(b0: byte, payload: seq<byte>, rest: seq<byte>)
    requires |payload| < 0x8000 || 0x1_0000 <= |payload| <= TwoTo64 - 11
    ensures Decode(EncodeFrame(b0, payload) + rest)
         == Complete(Frame(FinBit(b0), OpcodeOf(b0), payload), |EncodeFrame(b0, payload)|)
  {
    var n := |payload|;
    var e := EncodeFrame(b0, payload);
    var w := e + rest;
    var h := HeaderLength(w[1]);
    assert w[..|e|] == e;
    DeclaredLengthExact(w);
    if LengthField(w[1]) == 126 {
      assert w[2..4] == e[2..4] == EncodeLength(n)[1..];
    } else if LengthField(w[1]) == 127 {
      assert w[2..10] == e[2..10] == EncodeLength(n)[1..];
    }
    assert DeclaredLength(w) == n;
    assert w[h..h + n] == payload;
  }

  /** Every payload `send_websocket_frame` accepts decodes back as a final Text frame. */
  lemma TextFrameRoundTrip(payload: seq<byte>, rest: seq<byte>)
    requires |payload| <= TextFrameCapacity - 4
    ensures Decode(TextFrame(payload) + rest) == Complete(Frame(true, Text, payload), |TextFrame(payload)|)
  {
    DecodeEncodedFrame(0x81, payload, rest);
  }

  /** A pong frame of at most 125 payload bytes decodes back as a final Pong with the same payload. */
  lemma PongFrameRoundTrip(payload: seq<byte>, rest: seq<byte>)
    requires |payload| <= 125
    ensures Decode(PongFrame(payload) + rest) == Complete(Frame(true, Pong, payload), 2 + |payload|)
  {
    assert PongFrame(payload) == EncodeFrame(0x8A, payload);
    DecodeEncodedFrame(0x8A, payload, rest);
  }

  /**
   * A frame of 0x8000..0xFFFF payload bytes, well-formed on the wire, is
   * never delivered by the receive loops: the sign-extended length is
   * close to 2^64, so the decode keeps asking for more bytes even with
   * the whole frame present; for the top four lengths the
   * header-plus-payload sum wraps instead. The loops never get that far
   * (see `MidLengthPrefixNeverCompletes`).
   */
  lemma MidLengthFrameNeverCompletes(b0: byte, payload: seq<byte>, rest: seq<byte>)
    requires 0x8000 <= |payload| <= 0xFFFF
    requires |rest| < TwoTo64 - 0x1_0000
    ensures |payload| < 0xFFFC ==> Decode(EncodeFrame(b0, payload) + rest).NeedMore?
    ensures |payload| >= 0xFFFC ==> Decode(EncodeFrame(b0, payload) + rest).LengthWraps?
  {
    var w := EncodeFrame(b0, payload) + rest;
    MidLengthPrefixNeverCompletes(b0, payload, rest, w);
  }

  /**
   * The same holds of every prefix of the stream that holds the four
   * header bytes of such a frame, which is what the receive loops actually
   * see: their buffer never holds the frame whole (see
   * `MultiSocket.MidLengthFrameNeverWhole`). The decode waits at the
   * header, or, from 0xFFFC on, reports the wrap, however much of the
   * payload is present.
   */
  lemma MidLengthPrefixNeverCompletes(b0: byte, payload: seq<byte>, rest: seq<byte>, w: seq<byte>)
    requires 0x8000 <= |payload| <= 0xFFFF
    requires |rest| < TwoTo64 - 0x1_0000
    requires 4 <= |w| && w <= EncodeFrame(b0, payload) + rest
    ensures |payload| < 0xFFFC ==> Decode(w).NeedMore?
    ensures |payload| >= 0xFFFC ==> Decode(w).LengthWraps?
  {
    var n := |payload|;
    var e := EncodeFrame(b0, payload);
    assert w[..4] == (e + rest)[..4] == e[..4];
    assert w[1] == 126 && w[2] == n / 256 && w[3] == n % 256;
    assert DeclaredLength(w) == TwoTo64 - 0x1_0000 + n;
  }
}

=== FILE: multi_socket.dfy ===
/**
 * The multi-socket client (client_tls_1_thread_multiple_socket.cpp): a
 * registry from socket descriptor to `WebSocketConnection`, the frame
 * handler `process_websocket_frame`, and the buffered receive pass
 * `handle_socket_data` that appends one read to the connection's buffer,
 * decodes and dispatches complete frames from its head, erases the
 * consumed prefix and clears everything past a 16 KiB ceiling.
 */
module MultiSocket {
  import opened Bytes
  import opened FrameCodec
  import opened Reassembly

  /** A buffer longer than this after a pass is presumed desynchronised and cleared. */
  const BufferCeiling: nat := 16384

  /** Size of the `char temp_buf[4096]` each read goes into, in both receive loops. */
  const ReadCapacity: nat := 4096

  /**
   * `WebSocketConnection` without its TLS stream and descriptor (the
   * registry key): the subscribed symbol, the unconsumed bytes, the
   * reassembly state, the time of the last read and the `connected` flag.
   */
  datatype Conn = Conn(symbol: string, recvBuffer: seq<byte>, reasm: State, lastActivity: int, connected: bool)

  /** What one `recv` on the TLS stream returned: an error, or `n` bytes (n = 0 is end of stream). */
  datatype ReadOutcome = ReadError | Data(bytes: seq<byte>)

  /** `n <= 0`: the connection is dead. */
  predicate ReadFailed(read: ReadOutcome)
  {
    read.ReadError? || |read.bytes| == 0
  }

  /** The state every registered connection is in between passes. */
  predicate Healthy(c: Conn)
  {
    c.connected && Valid(c.reasm) && |c.recvBuffer| <= BufferCeiling
  }

  predicate RegistryHealthy(conns: map<int, Conn>)
  {
    forall fd :: fd in conns ==> Healthy(conns[fd])
  }

  /** The outcome of `process_websocket_frame` for one frame. */
  datatype Dispatch =
    | Continue(reasm: State, effects: seq<Effect>)
    | CloseReceived              // `conn->connected = false`
    | PongOverflow               // a Ping payload over 126 bytes overruns `send_pong_frame`'s buffer: undefined

  /**
   * `process_websocket_frame`: data frames go to the reassembler, a Ping
   * is answered at once with a Pong carrying the same payload (a failed
   * send is only logged), a Close marks the connection disconnected, and
   * Pong or unknown opcodes are ignored.
   */
  function ProcessFrame(r: State, f: Frame): (d: Dispatch)
    ensures d.CloseReceived? <==> f.opcode == Close
    ensures d.PongOverflow? <==> f.opcode == Ping && |f.payload| > PongFrameCapacity - 2
    ensures IsData(f) ==> d == Continue(Reassemble(r, f).state, Printed(Reassemble(r, f)))
    // control frames leave a fragmented message alone
    ensures !IsData(f) && d.Continue? ==> d.reasm == r
    ensures f.opcode == Ping && d.Continue? ==> d.effects == [Send([0x8A, |f.payload|] + f.payload)]
    ensures !IsData(f) && f.opcode != Ping && d.Continue? ==> d.effects == []
  {
    if IsData(f) then
      var st := Reassemble(r, f);
      Continue(st.state, Printed(st))
    else if f.opcode == Ping then
      if 2 + |f.payload| > PongFrameCapacity then PongOverflow
      else Continue(r, [Send(PongFrame(f.payload))])
    else if f.opcode == Close then CloseReceived
    else Continue(r, [])
  }

  /** Where the decode loop of one pass ends. */
  datatype ScanEnd =
    | Stopped(processed: nat, reasm: State, effects: seq<Effect>)   // `break` or end of buffer
    | Closed(effects: seq<Effect>)                                  // the connection is erased
    | Undefined                                                     // the C++ behaviour is undefined

  /** The end of a scan that started `n` bytes further on, after effects `pre`. */
  function After(n: nat, pre: seq<Effect>, e: ScanEnd): ScanEnd
  {
    match e
    case Stopped(p, r, effs) => Stopped(n + p, r, pre + effs)
    case Closed(effs) => Closed(pre + effs)
    case Undefined => Undefined
  }

  /**
   * The `while (processed < recv_buffer.size())` loop of
   * `handle_socket_data`, on the window from the cursor on: masked headers
   * are skipped two bytes at a time, complete frames are dispatched in
   * order, and the loop stops at the first frame that is not yet complete.
   * `live` is the entry's `connected` flag: after every dispatched frame
   * the loop erases the entry when the flag is down, so a Close frame ends
   * the scan, and so would any frame on an entry registered without the
   * flag.
   */
  function Scan(w: seq<byte>, r: State, live: bool): (e: ScanEnd)
    ensures e.Stopped? ==> e.processed <= |w|
    ensures e.Stopped? && Valid(r) ==> Valid(e.reasm)
    decreases |w|
  {
    match Decode(w)
    case NeedMore => Stopped(0, r, [])
    case LengthWraps => Undefined
    case Masked => After(2, [], Scan(w[2..], r, live))
    case Complete(f, n) =>
      match ProcessFrame(r, f)
      case CloseReceived => Closed([])
      case PongOverflow => Undefined
      case Continue(r', effs) => if live then After(n, effs, Scan(w[n..], r', live)) else Closed(effs)
  }

  /** The loop only stops in front of a frame that is not yet complete. */
  lemma {:induction false} ScanStopsAtIncompleteFrame(w: seq<byte>, r: State, live: bool)
    ensures var e := Scan(w, r, live);
            e.Stopped? ==> Decode(w[e.processed..]).NeedMore?
    decreases |w|, 1
  {
    match Decode(w)
    case NeedMore => assert w[0..] == w;
    case LengthWraps =>
    case Masked => StopsAfter(w, 2, [], r, live);
    case Complete(f, n) =>
      match ProcessFrame(r, f)
      case CloseReceived =>
      case PongOverflow =>
      case Continue(r', effs) => if live { StopsAfter(w, n, effs, r', live); }
  }

  /** The inductive step of `ScanStopsAtIncompleteFrame`: the scan resumed `n` bytes on. */
  lemma {:induction false} StopsAfter(w: seq<byte>, n: nat, effs: seq<Effect>, r': State, live: bool)
    requires 0 < n <= |w|
    ensures var e := After(n, effs, Scan(w[n..], r', live));
            e.Stopped? ==> Decode(w[e.processed..]).NeedMore?
    decreases |w|, 0
  {
    ScanStopsAtIncompleteFrame(w[n..], r', live);
    var e := Scan(w[n..], r', live);
    if e.Stopped? { SliceOfSlice(w, n, e.processed); }
  }

  lemma SliceOfSlice(w: seq<byte>, a: nat, b: nat)
    requires a + b <= |w|
    ensures w[a..][b..] == w[a + b..]
  {
  }

  /** What one pass leaves of a connection, before the ceiling is applied. */
  datatype Consumed =
    | Kept(conn: Conn, processed: nat, effects: seq<Effect>)
    | Dropped(effects: seq<Effect>)
    | ConsumeUndefined

  /**
   * Append the new bytes, run the decode loop and erase the processed
   * prefix: the buffer left behind is the old buffer followed by the new
   * bytes, minus exactly the `processed` bytes at its head, and it starts
   * with an incomplete frame.
   */
  function Consume(c: Conn, data: seq<byte>): (r: Consumed)
    ensures r.Kept? ==>
              && r.processed <= |c.recvBuffer + data|
              && r.conn == c.(recvBuffer := (c.recvBuffer + data)[r.processed..], reasm := r.conn.reasm)
    ensures r.Kept? && Valid(c.reasm) ==> Valid(r.conn.reasm)
  {
    var buf := c.recvBuffer + data;
    Erase(c, buf, Scan(buf, c.reasm, c.connected))
  }

  /** What a pass leaves in the buffer starts with a frame that is not yet complete. */
  lemma ConsumeLeavesIncompleteFrame(c: Conn, data: seq<byte>)
    ensures var r := Consume(c, data);
            r.Kept? ==> Decode(r.conn.recvBuffer).NeedMore?
  {
    ScanStopsAtIncompleteFrame(c.recvBuffer + data, c.reasm, c.connected);
  }

  /** `recv_buffer.erase(begin, begin + processed)` after the loop ended in `e`. */
  function Erase(c: Conn, buf: seq<byte>, e: ScanEnd): (r: Consumed)
    requires e.Stopped? ==> e.processed <= |buf|
  {
    match e
    case Stopped(p, r, effs) => Kept(c.(recvBuffer := buf[p..], reasm := r), p, effs)
    case Closed(effs) => Dropped(effs)
    case Undefined => ConsumeUndefined
  }

  /** Clear the buffer and the reassembly state when more than the ceiling remains. */
  function ApplyCeiling(c: Conn): (c': Conn)
    ensures |c'.recvBuffer| <= BufferCeiling
    ensures c'.symbol == c.symbol && c'.lastActivity == c.lastActivity && c'.connected == c.connected
    ensures |c.recvBuffer| <= BufferCeiling ==> c' == c
    ensures |c.recvBuffer| > BufferCeiling ==> c'.recvBuffer == [] && c'.reasm == Idle
  {
    if |c.recvBuffer| > BufferCeiling then c.(recvBuffer := [], reasm := Idle) else c
  }

  datatype Handled = Handled(conns: map<int, Conn>, effects: seq<Effect>) | HandleUndefined

  /**
   * `handle_socket_data(sockfd)` with the result of its one `recv` and the
   * clock reading `now`. An unknown descriptor is ignored; a failed read
   * or a Close frame erases exactly that descriptor's entry; otherwise the
   * entry is updated by one pass and no other entry changes.
   */
  function HandleSocketData(conns: map<int, Conn>, fd: int, read: ReadOutcome, now: int): (h: Handled)
    ensures fd !in conns ==> h == Handled(conns, [])
    ensures fd in conns && ReadFailed(read) ==> h == Handled(conns - {fd}, [])
    ensures h.Handled? ==> conns.Keys - {fd} <= h.conns.Keys <= conns.Keys
    ensures h.Handled? ==> forall k :: k in h.conns && k != fd ==> h.conns[k] == conns[k]
    ensures h.Handled? && fd in h.conns ==>
              && |h.conns[fd].recvBuffer| <= BufferCeiling
              && h.conns[fd].lastActivity == now
              && h.conns[fd].symbol == conns[fd].symbol
              && h.conns[fd].connected == conns[fd].connected
    ensures h.Handled? && RegistryHealthy(conns) ==> RegistryHealthy(h.conns)
  {
    if fd !in conns then Handled(conns, [])
    else if ReadFailed(read) then Handled(conns - {fd}, [])
    else Commit(conns, fd, Consume(conns[fd].(lastActivity := now), read.bytes))
  }

  /** Write one pass's outcome back to the registry: update the entry, erase it, or fail. */
  function Commit(conns: map<int, Conn>, fd: int, r: Consumed): Handled
  {
    match r
    case Kept(c', _, effs) => Handled(conns[fd := ApplyCeiling(c')], effs)
    case Dropped(effs) => Handled(conns - {fd}, effs)
    case ConsumeUndefined => HandleUndefined
  }

  lemma AfterZero(e: ScanEnd)
    ensures After(0, [], e) == e
  {
    match e
    case Stopped(p, r, effs) => assert [] + effs == effs;
    case Closed(effs) => assert [] + effs == effs;
    case Undefined =>
  }

  lemma AfterAfter(m: nat, pre: seq<Effect>, n: nat, mid: seq<Effect>, e: ScanEnd)
    ensures After(m, pre, After(n, mid, e)) == After(m + n, pre + mid, e)
  {
    match e
    case Stopped(p, r, effs) => assert pre + (mid + effs) == (pre + mid) + effs;
    case Closed(effs) => assert pre + (mid + effs) == (pre + mid) + effs;
    case Undefined =>
  }

  /**
   * Streaming: scanning `w + x` is scanning `w` and then scanning what `w`
   * left unconsumed followed by `x`; a scan of `w` that closed the
   * connection or hit undefined behaviour does the same on `w + x`.
   */
  lemma {:induction false} ScanAppend(w: seq<byte>, x: seq<byte>, r: State, live: bool)
    ensures var e := Scan(w, r, live);
            e.Stopped? ==> Scan(w + x, r, live) == After(e.processed, e.effects, Scan(w[e.processed..] + x, e.reasm, live))
    ensures !Scan(w, r, live).Stopped? ==> Scan(w + x, r, live) == Scan(w, r, live)
    decreases |w|, 1
  {
    var d := Decode(w);
    if d.NeedMore? {
      assert w[0..] == w;
      AfterZero(Scan(w + x, r, live));
    } else {
      DecodeExtends(w, x);
      match d
      case LengthWraps =>
      case Masked =>
        AppendSlice(w, x, 2);
        AppendAfter(w, x, 2, [], r, live);
      case Complete(f, n) =>
        AppendSlice(w, x, n);
        match ProcessFrame(r, f)
        case CloseReceived =>
        case PongOverflow =>
        case Continue(r', effs) => if live { AppendAfter(w, x, n, effs, r', live); }
    }
  }

  /** The inductive step of `ScanAppend`: both scans resumed `n` bytes on after effects `pre`. */
  lemma {:induction false} AppendAfter(w: seq<byte>, x: seq<byte>, n: nat, pre: seq<Effect>, r': State, live: bool)
    requires 0 < n <= |w|
    ensures var e := After(n, pre, Scan(w[n..], r', live));
            e.Stopped? ==> After(n, pre, Scan(w[n..] + x, r', live)) == After(e.processed, e.effects, Scan(w[e.processed..] + x, e.reasm, live))
    ensures var e := After(n, pre, Scan(w[n..], r', live));
            !e.Stopped? ==> After(n, pre, Scan(w[n..] + x, r', live)) == e
    decreases |w|, 0
  {
    var v := w[n..];
    ScanAppend(v, x, r', live);
    var e := Scan(v, r', live);
    if e.Stopped? {
      SliceOfSlice(w, n, e.processed);
      ResumeAfter(n, pre, e, Scan(v + x, r', live), Scan(w[n + e.processed..] + x, e.reasm, live));
    } else {
      ResumeAfter(n, pre, e, Scan(v + x, r', live), Undefined);
    }
  }

  /** `AppendAfter` with the scans named: only the bookkeeping of `After` is left. */
  lemma ResumeAfter(n: nat, pre: seq<Effect>, e: ScanEnd, ex: ScanEnd, tail: ScanEnd)
    requires e.Stopped? ==> ex == After(e.processed, e.effects, tail)
    requires !e.Stopped? ==> ex == e
    ensures var a := After(n, pre, e);
            a.Stopped? ==> a.processed == n + e.processed && After(n, pre, ex) == After(a.processed, a.effects, tail)
    ensures !After(n, pre, e).Stopped? ==> After(n, pre, ex) == After(n, pre, e)
  {
    if e.Stopped? { AfterAfter(n, pre, e.processed, e.effects, tail); }
  }

  lemma AppendSlice(w: seq<byte>, x: seq<byte>, n: nat)
    requires n <= |w|
    ensures (w + x)[n..] == w[n..] + x
  {
  }

  /** The pass a second read triggers, after the first one's result. */
  function ThenRead(h: Handled, fd: int, read: ReadOutcome, now: int): Handled
  {
    match h
    case HandleUndefined => HandleUndefined
    case Handled(conns, effs) =>
      match HandleSocketData(conns, fd, read, now)
      case HandleUndefined => HandleUndefined
      case Handled(conns', effs') => Handled(conns', effs + effs')
  }

  /** The end of a pass over further bytes, after a pass that consumed `n` bytes with effects `pre`. */
  function ThenConsumed(n: nat, pre: seq<Effect>, r: Consumed): Consumed
  {
    match r
    case Kept(c, p, effs) => Kept(c, n + p, pre + effs)
    case Dropped(effs) => Dropped(pre + effs)
    case ConsumeUndefined => ConsumeUndefined
  }

  /** Streaming at the level of one connection's pass, before the ceiling. */
  lemma ConsumeAppend(c: Conn, d1: seq<byte>, d2: seq<byte>)
    ensures var k := Consume(c, d1);
            k.Kept? ==> Consume(c, d1 + d2) == ThenConsumed(k.processed, k.effects, Consume(k.conn, d2))
    ensures !Consume(c, d1).Kept? ==> Consume(c, d1 + d2) == Consume(c, d1)
  {
    var buf := c.recvBuffer + d1;
    assert c.recvBuffer + (d1 + d2) == buf + d2;
    ScanAppend(buf, d2, c.reasm, c.connected);
    if Scan(buf, c.reasm, c.connected).Stopped? {
      ConsumeAppendKept(c, d1, d2);
    }
  }

  lemma ConsumeAppendKept(c: Conn, d1: seq<byte>, d2: seq<byte>)
    requires Scan(c.recvBuffer + d1, c.reasm, c.connected).Stopped?
    requires var e := Scan(c.recvBuffer + d1, c.reasm, c.connected);
             Scan(c.recvBuffer + (d1 + d2), c.reasm, c.connected)
             == After(e.processed, e.effects, Scan((c.recvBuffer + d1)[e.processed..] + d2, e.reasm, c.connected))
    ensures var k := Consume(c, d1);
            k.Kept? && Consume(c, d1 + d2) == ThenConsumed(k.processed, k.effects, Consume(k.conn, d2))
  {
    var buf := c.recvBuffer + d1;
    var e := Scan(buf, c.reasm, c.connected);
    var k := c.(recvBuffer := buf[e.processed..], reasm := e.reasm);
    var rest := Scan(buf[e.processed..] + d2, e.reasm, c.connected);
    assert Consume(c, d1) == Kept(k, e.processed, e.effects);
    assert Consume(k, d2) == Erase(k, buf[e.processed..] + d2, rest);
    ConcatAssoc(c.recvBuffer, d1, d2);
    EraseAfter(c, buf, d2, e.processed, e.effects, e.reasm, rest);
  }

  lemma ConcatAssoc(a: seq<byte>, b: seq<byte>, c: seq<byte>)
    ensures a + (b + c) == (a + b) + c
  {
  }

  /** Erasing after a scan that went on past a first stop is erasing twice. */
  lemma EraseAfter(c: Conn, buf: seq<byte>, d2: seq<byte>, p: nat, effs: seq<Effect>, r: State, rest: ScanEnd)
    requires p <= |buf|
    requires rest.Stopped? ==> rest.processed <= |buf[p..] + d2|
    ensures Erase(c, buf + d2, After(p, effs, rest))
         == ThenConsumed(p, effs, Erase(c.(recvBuffer := buf[p..], reasm := r), buf[p..] + d2, rest))
  {
    if rest.Stopped? {
      assert (buf + d2)[p + rest.processed..] == (buf[p..] + d2)[rest.processed..];
    }
  }

  /** The first of two reads leaves more than the ceiling behind, so its pass clears the buffer. */
  predicate ClearsBuffer(c: Conn, data: seq<byte>)
  {
    var r := Consume(c, data);
    r.Kept? && |r.conn.recvBuffer| > BufferCeiling
  }

  /**
   * How the stream is split into reads does not matter: two reads handled
   * one after the other print, send, erase and leave behind exactly what
   * one read of the concatenated bytes does, unless the first pass had to
   * clear its buffer at the ceiling.
   */
  lemma SplitReads(conns: map<int, Conn>, fd: int, d1: seq<byte>, d2: seq<byte>, t1: int, t2: int)
    requires fd in conns && |d1| > 0 && |d2| > 0
    requires !ClearsBuffer(conns[fd].(lastActivity := t1), d1)
    ensures ThenRead(HandleSocketData(conns, fd, Data(d1), t1), fd, Data(d2), t2)
         == HandleSocketData(conns, fd, Data(d1 + d2), t2)
  {
    var c1 := conns[fd].(lastActivity := t1);
    var c2 := conns[fd].(lastActivity := t2);
    ConsumeAppend(c2, d1, d2);
    ConsumeIgnoresClock(c1, d1, t2);
    var k := Consume(c1, d1);
    var second := if k.Kept? then Consume(k.conn.(lastActivity := t2), d2) else ConsumeUndefined;
    assert |d1 + d2| > 0;
    CommitThen(conns, fd, d2, t2, k, second, Consume(c2, d1 + d2));
  }

  /** `SplitReads` once the passes are named: only the registry bookkeeping is left. */
  lemma CommitThen(conns: map<int, Conn>, fd: int, d2: seq<byte>, t2: int, k: Consumed, second: Consumed, whole: Consumed)
    requires fd in conns && |d2| > 0
    requires k.Kept? ==> |k.conn.recvBuffer| <= BufferCeiling
    requires k.Kept? ==> second == Consume(k.conn.(lastActivity := t2), d2)
    requires k.Kept? ==> whole == ThenConsumed(k.processed, k.effects, second)
    requires !k.Kept? ==> whole == k
    ensures ThenRead(Commit(conns, fd, k), fd, Data(d2), t2) == Commit(conns, fd, whole)
  {
    if k.Kept? {
      var kc := k.conn;
      assert ApplyCeiling(kc) == kc;
      var m := conns[fd := kc];
      assert HandleSocketData(m, fd, Data(d2), t2) == Commit(m, fd, second);
      UpdateTwice(conns, fd, kc, kc.(lastActivity := t2));
      UpdateThenRemove(conns, fd, kc);
      assert ApplyCeiling(kc.(lastActivity := t2)) == kc.(lastActivity := t2);
    } else if k.Dropped? {
      assert k.effects + [] == k.effects;
    }
  }

  /** The clock reading plays no part in a pass: only `lastActivity` differs. */
  lemma ConsumeIgnoresClock(c: Conn, data: seq<byte>, t: int)
    ensures Consume(c.(lastActivity := t), data) == match Consume(c, data)
              case Kept(k, p, effs) => Kept(k.(lastActivity := t), p, effs)
              case Dropped(effs) => Dropped(effs)
              case ConsumeUndefined => ConsumeUndefined
  {
  }

  lemma UpdateTwice(conns: map<int, Conn>, fd: int, a: Conn, b: Conn)
    ensures conns[fd := a][fd := b] == conns[fd := b]
  {
  }

  lemma UpdateThenRemove(conns: map<int, Conn>, fd: int, a: Conn)
    ensures conns[fd := a] - {fd} == conns - {fd}
  {
  }

  /**
   * A Ping arriving as the only bytes in the buffer is answered with
   * exactly one Pong frame carrying the identical payload, and nothing
   * else about a connected entry changes but its buffer and clock; an
   * entry without the `connected` flag still answers, then is erased.
   */
  lemma PingAnswered(conns: map<int, Conn>, fd: int, data: seq<byte>, now: int, payload: seq<byte>)
    requires fd in conns && |data| > 0 && |payload| <= 125
    requires conns[fd].recvBuffer + data == EncodeFrame(0x89, payload)
    ensures conns[fd].connected ==>
              HandleSocketData(conns, fd, Data(data), now)
              == Handled(conns[fd := conns[fd].(recvBuffer := [], lastActivity := now)], [Send([0x8A, |payload|] + payload)])
    ensures !conns[fd].connected ==>
              HandleSocketData(conns, fd, Data(data), now) == Handled(conns - {fd}, [Send([0x8A, |payload|] + payload)])
  {
    var w := conns[fd].recvBuffer + data;
    DecodeEncodedFrame(0x89, payload, []);
    assert w + [] == w;
    assert w[|w|..] == [];
    assert Scan(w[|w|..], conns[fd].reasm, conns[fd].connected) == Stopped(0, conns[fd].reasm, []);
  }

  /**
   * A Close frame at the head of the buffer erases the connection's entry
   * and nothing behind it in the buffer is processed, whatever it holds.
   */
  lemma CloseFrameEvicts(conns: map<int, Conn>, fd: int, data: seq<byte>, now: int, payload: seq<byte>, rest: seq<byte>)
    requires fd in conns && |data| > 0 && |payload| <= 125
    requires conns[fd].recvBuffer + data == EncodeFrame(0x88, payload) + rest
    ensures HandleSocketData(conns, fd, Data(data), now) == Handled(conns - {fd}, [])
  {
    DecodeEncodedFrame(0x88, payload, rest);
  }

  /**
   * A buffer within the ceiling plus one read of at most `temp_buf`'s
   * size is shorter than any frame of 0x8000 payload bytes or more: the
   * receive loops never hold such a frame whole.
   */
  lemma MidLengthFrameNeverWhole(buffer: seq<byte>, data: seq<byte>, b0: byte, payload: seq<byte>, rest: seq<byte>)
    requires |buffer| <= BufferCeiling && |data| <= ReadCapacity && 0x8000 <= |payload| < TwoTo64
    ensures |buffer + data| < |EncodeFrame(b0, payload)|
    ensures buffer + data != EncodeFrame(b0, payload) + rest
  {
    assert |EncodeFrame(b0, payload)| >= 2 + |payload|;
  }

  /**
   * A frame of 0x8000..0xFFFB payload bytes is never delivered: once its
   * four header bytes are buffered, its sign-extended length keeps the
   * loop at the frame, which waits in the buffer while that stays within
   * the ceiling; once more than the ceiling is buffered, the pass
   * discards it together with the reassembly state, dispatching nothing.
   * From 0xFFFC on the length sum wraps and the pass is undefined.
   */
  lemma MidLengthFrameDiscarded(conns: map<int, Conn>, fd: int, data: seq<byte>, now: int,
                                b0: byte, payload: seq<byte>, rest: seq<byte>)
    requires fd in conns && |data| > 0
    requires 0x8000 <= |payload| <= 0xFFFF && |rest| < TwoTo64 - 0x1_0000
    requires 4 <= |conns[fd].recvBuffer + data|
    requires conns[fd].recvBuffer + data <= EncodeFrame(b0, payload) + rest
    ensures |payload| < 0xFFFC && |conns[fd].recvBuffer + data| <= BufferCeiling ==>
              HandleSocketData(conns, fd, Data(data), now)
              == Handled(conns[fd := conns[fd].(recvBuffer := conns[fd].recvBuffer + data, lastActivity := now)], [])
    ensures |payload| < 0xFFFC && |conns[fd].recvBuffer + data| > BufferCeiling ==>
              HandleSocketData(conns, fd, Data(data), now)
              == Handled(conns[fd := conns[fd].(recvBuffer := [], reasm := Idle, lastActivity := now)], [])
    ensures |payload| >= 0xFFFC ==> HandleSocketData(conns, fd, Data(data), now) == HandleUndefined
  {
    var w := conns[fd].recvBuffer + data;
    MidLengthPrefixNeverCompletes(b0, payload, rest, w);
    assert w[0..] == w;
  }

  /**
   * What follows the discard: the next read, which brings more of the
   * same frame's payload, is handled exactly as if the connection had
   * just started, so payload bytes are decoded as frames. A payload that
   * continues with the bytes 0x88 0x00 reads as a Close and erases the
   * connection.
   */
  lemma MidLengthTailReadAsFrames(conns: map<int, Conn>, fd: int, d1: seq<byte>, d2: seq<byte>, t1: int, t2: int,
                                  b0: byte, payload: seq<byte>, rest: seq<byte>)
    requires fd in conns && |d1| > 0
    requires 0x8000 <= |payload| < 0xFFFC && |rest| < TwoTo64 - 0x1_0000
    requires BufferCeiling < |conns[fd].recvBuffer + d1|
    requires conns[fd].recvBuffer + d1 <= EncodeFrame(b0, payload) + rest
    ensures ThenRead(HandleSocketData(conns, fd, Data(d1), t1), fd, Data(d2), t2)
         == HandleSocketData(conns[fd := conns[fd].(recvBuffer := [], reasm := Idle)], fd, Data(d2), t2)
    ensures |d2| >= 2 && d2[0] == 0x88 && d2[1] == 0x00 ==>
              ThenRead(HandleSocketData(conns, fd, Data(d1), t1), fd, Data(d2), t2) == Handled(conns - {fd}, [])
  {
    MidLengthFrameDiscarded(conns, fd, d1, t1, b0, payload, rest);
    var cleared := conns[fd].(recvBuffer := [], reasm := Idle);
    ThenReadAfterSilence(conns[fd := cleared.(lastActivity := t1)], fd, Data(d2), t2);
    ReadIgnoresStamp(conns, fd, cleared.(lastActivity := t1), cleared, d2, t2);
    if |d2| >= 2 && d2[0] == 0x88 && d2[1] == 0x00 {
      assert d2 == EncodeFrame(0x88, []) + d2[2..];
      CloseFrameEvicts(conns[fd := cleared], fd, d2, t2, [], d2[2..]);
      UpdateThenRemove(conns, fd, cleared);
    }
  }

  /** A read after a pass that had no effects contributes its own effects only. */
  lemma ThenReadAfterSilence(conns: map<int, Conn>, fd: int, read: ReadOutcome, now: int)
    ensures ThenRead(Handled(conns, []), fd, read, now) == HandleSocketData(conns, fd, read, now)
  {
    match HandleSocketData(conns, fd, read, now)
    case HandleUndefined =>
    case Handled(_, effs) => assert [] + effs == effs;
  }

  /** An entry's clock before a read plays no part in it: the read stamps its own. */
  lemma ReadIgnoresStamp(conns: map<int, Conn>, fd: int, a: Conn, b: Conn, data: seq<byte>, now: int)
    requires a.(lastActivity := now) == b.(lastActivity := now)
    ensures HandleSocketData(conns[fd := a], fd, Data(data), now) == HandleSocketData(conns[fd := b], fd, Data(data), now)
  {
    var k := Consume(a.(lastActivity := now), data);
    if k.Kept? {
      UpdateTwice(conns, fd, a, ApplyCeiling(k.conn));
      UpdateTwice(conns, fd, b, ApplyCeiling(k.conn));
    }
    UpdateThenRemove(conns, fd, a);
    UpdateThenRemove(conns, fd, b);
  }

  /**
   * A masked header is skipped by its two bytes only: nothing is
   * dispatched for it, the connection stays, and the loop carries on with
   * the byte after it.
   */
  lemma MaskedHeaderSkipped(b0: byte, b1: byte, rest: seq<byte>, r: State, live: bool)
    requires MaskBit(b1)
    ensures Scan([b0, b1] + rest, r, live) == After(2, [], Scan(rest, r, live))
  {
    assert ([b0, b1] + rest)[2..] == rest;
  }
}

=== FILE: reassembly.dfy ===
/**
 * Fragment reassembly of section 5.4 of RFC 6455 as both receive loops
 * write it (`process_websocket_frame` in the multi-socket client and the
 * inline branch in `websocket_handler` of the two-thread client): a
 * Text or Binary frame with FIN clear opens a message, Continuation
 * frames append, and the final Continuation prints the message when it
 * was opened as Text. Only Text messages reach the output; a Binary
 * message is assembled and dropped.
 */
module Reassembly {
  import opened Wrappers
  import opened Bytes
  import opened FrameCodec

  /** `fragmented_message`, `in_fragmented_message`, `fragmented_opcode`. */
  datatype State = State(message: seq<byte>, inProgress: bool, opcode: nibble)

  /** The state a connection starts in and returns to after each message. */
  const Idle: State := State([], false, 0)

  /** What handling frames does outside the connection's own state, in order. */
  datatype Effect =
    | Print(text: seq<byte>)     // a complete Text message written to standard output
    | Send(frame: seq<byte>)     // a frame handed to the transport

  /** The states the loops can reach: idle is fully reset, a message in progress was opened by Text or Binary. */
  predicate Valid(s: State)
  {
    && (!s.inProgress ==> s == Idle)
    && (s.inProgress ==> s.opcode == Text || s.opcode == Binary)
  }

  /** The frames the reassembler handles; every other opcode is a control frame or unknown. */
  predicate IsData(f: Frame)
  {
    f.opcode == Continuation || f.opcode == Text || f.opcode == Binary
  }

  datatype Step = Step(state: State, printed: Option<seq<byte>>)

  /** Fold one data frame into the reassembly state. */
  function Reassemble(s: State, f: Frame): (r: Step)
    requires IsData(f)
    ensures Valid(s) ==> Valid(r.state)
    // a complete Text/Binary frame is handled at once and leaves a partial message alone
    ensures f.opcode != Continuation && f.fin ==>
              r.state == s && (r.printed.Some? <==> f.opcode == Text) && (r.printed.Some? ==> r.printed.value == f.payload)
    // an opening frame replaces whatever partial message there was
    ensures f.opcode != Continuation && !f.fin ==> r == Step(State(f.payload, true, f.opcode), None)
    // a Continuation with no message in progress changes nothing
    ensures f.opcode == Continuation && !s.inProgress ==> r == Step(s, None)
    // a Continuation appends; the final one ends the message
    ensures f.opcode == Continuation && s.inProgress && !f.fin ==>
              r == Step(s.(message := s.message + f.payload), None)
    ensures f.opcode == Continuation && s.inProgress && f.fin ==>
              && r.state == Idle
              && (r.printed.Some? <==> s.opcode == Text)
              && (r.printed.Some? ==> r.printed.value == s.message + f.payload)
  {
    if f.opcode == Text || f.opcode == Binary then
      if f.fin then Step(s, if f.opcode == Text then Some(f.payload) else None)
      else Step(State(f.payload, true, f.opcode), None)
    else if !s.inProgress then Step(s, None)
    else
      var m := s.message + f.payload;
      if !f.fin then Step(s.(message := m), None)
      else Step(Idle, if s.opcode == Text then Some(m) else None)
  }

  /** The Print effect of one reassembly step, if any. */
  function Printed(r: Step): seq<Effect>
  {
    if r.printed.Some? then [Print(r.printed.value)] else []
  }

  /** A run of frames the reassembler handles one after the other. */
  predicate AllData(fs: seq<Frame>)
  {
    forall i :: 0 <= i < |fs| ==> IsData(fs[i])
  }

  /** Feed a run of data frames through the reassembler, collecting what it prints. */
  function Feed(s: State, fs: seq<Frame>): (State, seq<seq<byte>>)
    requires AllData(fs)
    decreases |fs|
  {
    if |fs| == 0 then (s, [])
    else
      var r := Reassemble(s, fs[0]);
      var rest := Feed(r.state, fs[1..]);
      (rest.0, (if r.printed.Some? then [r.printed.value] else []) + rest.1)
  }

  function Concat(parts: seq<seq<byte>>): seq<byte>
  {
    if |parts| == 0 then [] else parts[0] + Concat(parts[1..])
  }

  function Continuations(parts: seq<seq<byte>>): (fs: seq<Frame>)
    ensures |fs| == |parts|
    ensures forall i :: 0 <= i < |fs| ==> fs[i] == Frame(false, Continuation, parts[i])
  {
    if |parts| == 0 then [] else [Frame(false, Continuation, parts[0])] + Continuations(parts[1..])
  }

  lemma ContinuationsThen(parts: seq<seq<byte>>, tail: seq<Frame>)
    requires AllData(tail)
    ensures AllData(Continuations(parts) + tail)
  {
    var fs := Continuations(parts) + tail;
    forall i | 0 <= i < |fs| ensures IsData(fs[i]) {
      if i >= |parts| { assert fs[i] == tail[i - |parts|]; }
    }
  }

  /** Non-final continuations only extend the message in progress and print nothing. */
  lemma {:induction false} FeedContinuations(s: State, parts: seq<seq<byte>>, tail: seq<Frame>)
    requires s.inProgress && AllData(tail)
    ensures AllData(Continuations(parts) + tail)
    ensures Feed(s, Continuations(parts) + tail) == Feed(s.(message := s.message + Concat(parts)), tail)
    decreases |parts|
  {
    var fs := Continuations(parts) + tail;
    ContinuationsThen(parts, tail);
    if |parts| == 0 {
      assert fs == tail;
      assert s.(message := s.message + Concat(parts)) == s;
    } else {
      var s' := s.(message := s.message + parts[0]);
      assert fs[1..] == Continuations(parts[1..]) + tail;
      FeedContinuations(s', parts[1..], tail);
      assert Reassemble(s, fs[0]) == Step(s', None);
      assert Feed(s, fs).1 == [] + Feed(s', fs[1..]).1 == Feed(s', fs[1..]).1;
      assert s'.(message := s'.message + Concat(parts[1..])) == s.(message := s.message + Concat(parts));
    }
  }

  /**
   * A fragmented message: an opening Text or Binary frame with FIN clear,
   * any number of non-final Continuations and a final one. Whatever state
   * the connection was in, the message printed is the concatenation of all
   * fragments when it was opened as Text, nothing when Binary, and the
   * state ends idle.
   */
  lemma FragmentedMessage(s: State, opcode: nibble, first: seq<byte>, middle: seq<seq<byte>>, last: seq<byte>)
    requires opcode == Text || opcode == Binary
    ensures var fs := [Frame(false, opcode, first)] + Continuations(middle) + [Frame(true, Continuation, last)];
            && AllData(fs)
            && Feed(s, fs) == (Idle, if opcode == Text then [first + Concat(middle) + last] else [])
  {
    var fs := [Frame(false, opcode, first)] + Continuations(middle) + [Frame(true, Continuation, last)];
    var start := State(first, true, opcode);
    FeedContinuations(start, middle, [Frame(true, Continuation, last)]);
    assert fs[1..] == Continuations(middle) + [Frame(true, Continuation, last)];
    var full := start.(message := first + Concat(middle));
    assert Reassemble(s, fs[0]) == Step(start, None);
    assert Feed(s, fs).1 == [] + Feed(start, fs[1..]).1 == Feed(start, fs[1..]).1;
    assert Feed(full, [Frame(true, Continuation, last)]).1 == (if opcode == Text then [first + Concat(middle) + last] else []);
  }
}

=== FILE: stream_handler.dfy ===
/**
 * The receive loop inside `websocket_handler` of the two-thread client
 * (client_tls_2_thread.cpp): one connection, one buffer, the same header
 * decode as the multi-socket client, the reassembly written inline. Two
 * things differ from `handle_socket_data`: a Close frame only ends the
 * pass (the connection stays and the frame stays at the head of the
 * buffer), and a failed Pong send ends the pass in front of the Ping that
 * caused it.
 */
module StreamHandler {
  import opened Wrappers
  import opened Bytes
  import opened FrameCodec
  import opened Reassembly
  import opened MultiSocket

  /** The handler's locals that outlive one read: `recv_buffer` and the reassembly state. */
  datatype Session = Session(recvBuffer: seq<byte>, reasm: State)

  /**
   * One `recv` and the fate of the Pong sends the pass that follows it
   * makes: the k-th send (counting from 0) fails exactly when k is in
   * `pongFails`.
   */
  datatype Delivery = Delivery(read: ReadOutcome, pongFails: set<nat>)

  /** Where the inner `while (processed < recv_buffer.size())` loop ends. */
  datatype PassEnd =
    | Halted(processed: nat, reasm: State, effects: seq<Effect>)
    | PassUndefined

  function AfterPass(n: nat, pre: seq<Effect>, e: PassEnd): PassEnd
  {
    match e
    case Halted(p, r, effs) => Halted(n + p, r, pre + effs)
    case PassUndefined => PassUndefined
  }

  /**
   * The inner loop on the window from the cursor on, `sent` Pong sends
   * into the pass. It stops at an incomplete frame, in front of a Close
   * frame, and in front of a Ping whose Pong could not be sent.
   */
  function Pass(w: seq<byte>, r: State, pongFails: set<nat>, sent: nat): (e: PassEnd)
    ensures e.Halted? ==> e.processed <= |w|
    ensures e.Halted? && Valid(r) ==> Valid(e.reasm)
    decreases |w|
  {
    match Decode(w)
    case NeedMore => Halted(0, r, [])
    case LengthWraps => PassUndefined
    case Masked => AfterPass(2, [], Pass(w[2..], r, pongFails, sent))
    case Complete(f, n) =>
      if IsData(f) then
        var st := Reassemble(r, f);
        AfterPass(n, Printed(st), Pass(w[n..], st.state, pongFails, sent))
      else if f.opcode == Ping then
        if 2 + |f.payload| > PongFrameCapacity then PassUndefined
        else if sent in pongFails then Halted(0, r, [Send(PongFrame(f.payload))])
        else AfterPass(n, [Send(PongFrame(f.payload))], Pass(w[n..], r, pongFails, sent + 1))
      else if f.opcode == Close then Halted(0, r, [])
      else AfterPass(n, [], Pass(w[n..], r, pongFails, sent))
  }

  /**
   * Where the pass halts: in front of a frame that is not yet complete, a
   * Close frame, or a Ping whose Pong failed; in the last two cases the
   * frame is still there at the cursor, unconsumed.
   */
  predicate HaltsAt(w: seq<byte>)
  {
    var d := Decode(w);
    d.NeedMore? || (d.Complete? && (d.frame.opcode == Close || d.frame.opcode == Ping))
  }

  lemma {:induction false} PassHaltsAtHead(w: seq<byte>, r: State, pongFails: set<nat>, sent: nat)
    ensures var e := Pass(w, r, pongFails, sent);
            e.Halted? ==> e.processed <= |w| && HaltsAt(w[e.processed..])
    decreases |w|, 1
  {
    assert w[0..] == w;
    match Decode(w)
    case NeedMore =>
    case LengthWraps =>
    case Masked => HaltsAfter(w, 2, pongFails, [], r, sent);
    case Complete(f, n) =>
      if IsData(f) {
        var st := Reassemble(r, f);
        HaltsAfter(w, n, pongFails, Printed(st), st.state, sent);
      } else if f.opcode == Ping {
        if 2 + |f.payload| <= PongFrameCapacity && sent !in pongFails {
          HaltsAfter(w, n, pongFails, [Send(PongFrame(f.payload))], r, sent + 1);
        }
      } else if f.opcode != Close {
        HaltsAfter(w, n, pongFails, [], r, sent);
      }
  }

  /** The inductive step of `PassHaltsAtHead`: the pass resumed `n` bytes on. */
  lemma {:induction false} HaltsAfter(w: seq<byte>, n: nat, pongFails: set<nat>,
                                      pre: seq<Effect>, r': State, sent': nat)
    requires 0 < n <= |w|
    ensures var e := AfterPass(n, pre, Pass(w[n..], r', pongFails, sent'));
            e.Halted? ==> e.processed <= |w| && HaltsAt(w[e.processed..])
    decreases |w|, 0
  {
    PassHaltsAtHead(w[n..], r', pongFails, sent');
    var e := Pass(w[n..], r', pongFails, sent');
    if e.Halted? { SliceOfSlice(w, n, e.processed); }
  }

  datatype Received =
    | Received(session: Session, processed: nat, effects: seq<Effect>)
    | ReceiveUndefined

  /**
   * One turn of the outer loop after a successful read: append, run the
   * inner loop, erase the processed prefix, and clear the buffer and the
   * reassembly state when more than 16384 bytes remain.
   */
  function Receive(s: Session, data: seq<byte>, pongFails: set<nat>): (r: Received)
    ensures r.Received? ==> r.processed <= |s.recvBuffer + data|
    ensures r.Received? && |s.recvBuffer + data| - r.processed <= BufferCeiling ==>
              r.session.recvBuffer == (s.recvBuffer + data)[r.processed..]
    ensures r.Received? && |s.recvBuffer + data| - r.processed > BufferCeiling ==> r.session == Session([], Idle)
    ensures r.Received? ==> |r.session.recvBuffer| <= BufferCeiling
    ensures r.Received? && Valid(s.reasm) ==> Valid(r.session.reasm)
  {
    var buf := s.recvBuffer + data;
    match Pass(buf, s.reasm, pongFails, 0)
    case PassUndefined => ReceiveUndefined
    case Halted(p, r', effs) =>
      if |buf[p..]| > BufferCeiling then Received(Session([], Idle), p, effs)
      else Received(Session(buf[p..], r'), p, effs)
  }

  datatype HandlerEnd =
    | Ended(session: Session, effects: seq<Effect>)     // a read returned `n <= 0`: the handler returns
    | Waiting(session: Session, effects: seq<Effect>)   // the supplied reads ran out
    | HandlerUndefined

  function PrependEnd(pre: seq<Effect>, h: HandlerEnd): HandlerEnd
  {
    match h
    case Ended(s, effs) => Ended(s, pre + effs)
    case Waiting(s, effs) => Waiting(s, pre + effs)
    case HandlerUndefined => HandlerUndefined
  }

  /** The outer `while (true)` loop of `websocket_handler` after the subscription is sent. */
  function Handler(s: Session, ds: seq<Delivery>): (h: HandlerEnd)
    ensures !h.HandlerUndefined? && |s.recvBuffer| <= BufferCeiling ==> |h.session.recvBuffer| <= BufferCeiling
    ensures !h.HandlerUndefined? && Valid(s.reasm) ==> Valid(h.session.reasm)
    ensures (exists i :: 0 <= i < |ds| && ReadFailed(ds[i].read)) ==> !h.Waiting?
    decreases |ds|
  {
    if |ds| == 0 then Waiting(s, [])
    else if ReadFailed(ds[0].read) then Ended(s, [])
    else
      match Receive(s, ds[0].read.bytes, ds[0].pongFails)
      case ReceiveUndefined => HandlerUndefined
      case Received(s', _, effs) =>
        var rest := Handler(s', ds[1..]);
        assert (exists i :: 0 <= i < |ds| && ReadFailed(ds[i].read)) ==>
               (exists i :: 0 <= i < |ds[1..]| && ReadFailed(ds[1..][i].read)) by {
          if exists i :: 0 <= i < |ds| && ReadFailed(ds[i].read) {
            var i :| 0 <= i < |ds| && ReadFailed(ds[i].read);
            assert i > 0 && ds[1..][i - 1] == ds[i];
          }
        }
        PrependEnd(effs, rest)
  }

  /**
   * A Text frame built by `send_websocket_frame` arriving on an empty
   * buffer is printed whole and consumed whole, whatever the reassembly
   * state: the handler's side of the encode/decode round trip.
   */
  lemma TextFrameDelivered(r: State, payload: seq<byte>, pongFails: set<nat>)
    requires |payload| <= TextFrameCapacity - 4
    ensures Receive(Session([], r), TextFrame(payload), pongFails)
         == Received(Session([], r), |TextFrame(payload)|, [Print(payload)])
  {
    var w := TextFrame(payload);
    TextFrameRoundTrip(payload, []);
    assert w + [] == w;
    CompleteTextFrameDelivered(r, w, pongFails);
  }

  /**
   * Any complete final Text frame arriving alone on an empty buffer is
   * printed whole and consumed whole, and the reassembly state, with any
   * message in progress, is untouched.
   */
  lemma CompleteTextFrameDelivered(r: State, w: seq<byte>, pongFails: set<nat>)
    requires Decode(w).Complete? && Decode(w).size == |w|
    requires Decode(w).frame.fin && Decode(w).frame.opcode == Text
    ensures Receive(Session([], r), w, pongFails) == Received(Session([], r), |w|, [Print(Decode(w).frame.payload)])
  {
    var f := Decode(w).frame;
    assert Reassemble(r, f) == Step(r, Some(f.payload));
    assert w[|w|..] == [];
    assert Pass([], r, pongFails, 0) == Halted(0, r, []);
    assert Pass(w, r, pongFails, 0) == Halted(|w|, r, [Print(f.payload)]);
    assert [] + w == w;
  }

  /**
   * A complete final Binary frame arriving alone on an empty buffer is
   * consumed whole and dropped: nothing is printed or sent and the
   * reassembly state is untouched.
   */
  lemma CompleteBinaryFrameDropped(r: State, w: seq<byte>, pongFails: set<nat>)
    requires Decode(w).Complete? && Decode(w).size == |w|
    requires Decode(w).frame.fin && Decode(w).frame.opcode == Binary
    ensures Receive(Session([], r), w, pongFails) == Received(Session([], r), |w|, [])
  {
    var f := Decode(w).frame;
    assert Reassemble(r, f) == Step(r, None);
    assert w[|w|..] == [];
    assert Pass([], r, pongFails, 0) == Halted(0, r, []);
    assert Pass(w, r, pongFails, 0) == Halted(|w|, r, []);
    assert [] + w == w;
  }

  /**
   * Every Binary frame the frame builder makes, for every length the
   * decode reads correctly, is consumed whole and dropped.
   */
  lemma BinaryFrameDropped(r: State, payload: seq<byte>, pongFails: set<nat>)
    requires |payload| < 0x8000 || 0x1_0000 <= |payload| <= TwoTo64 - 11
    ensures Receive(Session([], r), EncodeFrame(0x82, payload), pongFails)
         == Received(Session([], r), |EncodeFrame(0x82, payload)|, [])
  {
    var w := EncodeFrame(0x82, payload);
    DecodeEncodedFrame(0x82, payload, []);
    assert w + [] == w;
    CompleteBinaryFrameDropped(r, w, pongFails);
  }

  /**
   * A Close frame at the head of the buffer ends the pass without
   * consuming it: nothing is dispatched, the reassembly state is kept and
   * the frame is still at the head afterwards (while under the ceiling),
   * so every later pass stops at it again.
   */
  lemma CloseFrameStaysAtHead(s: Session, data: seq<byte>, pongFails: set<nat>, payload: seq<byte>, rest: seq<byte>)
    requires |payload| <= 125
    requires s.recvBuffer + data == EncodeFrame(0x88, payload) + rest
    requires |s.recvBuffer + data| <= BufferCeiling
    ensures Receive(s, data, pongFails) == Received(Session(s.recvBuffer + data, s.reasm), 0, [])
  {
    var buf := s.recvBuffer + data;
    DecodeEncodedFrame(0x88, payload, rest);
    assert buf[0..] == buf;
  }

  /**
   * A failed Pong send ends the pass in front of the Ping that caused it:
   * the send was attempted once, and the Ping stays at the head of the
   * buffer to be answered again after the next read.
   */
  lemma FailedPongKeepsPing(s: Session, data: seq<byte>, pongFails: set<nat>, payload: seq<byte>, rest: seq<byte>)
    requires |payload| <= 125 && 0 in pongFails
    requires s.recvBuffer + data == EncodeFrame(0x89, payload) + rest
    requires |s.recvBuffer + data| <= BufferCeiling
    ensures Receive(s, data, pongFails)
         == Received(Session(s.recvBuffer + data, s.reasm), 0, [Send([0x8A, |payload|] + payload)])
  {
    var buf := s.recvBuffer + data;
    DecodeEncodedFrame(0x89, payload, rest);
    assert buf[0..] == buf;
  }

  /**
   * The two-thread loop treats a frame of 0x8000..0xFFFB payload bytes the
   * same way: never delivered; it waits in the buffer while that stays
   * within the ceiling, and is discarded with the reassembly state once
   * more is buffered, with nothing dispatched.
   */
  lemma MidLengthFrameDiscarded(s: Session, data: seq<byte>, pongFails: set<nat>,
                                b0: byte, payload: seq<byte>, rest: seq<byte>)
    requires 0x8000 <= |payload| <= 0xFFFF && |rest| < TwoTo64 - 0x1_0000
    requires 4 <= |s.recvBuffer + data| && s.recvBuffer + data <= EncodeFrame(b0, payload) + rest
    ensures |payload| < 0xFFFC && |s.recvBuffer + data| <= BufferCeiling ==>
              Receive(s, data, pongFails) == Received(Session(s.recvBuffer + data, s.reasm), 0, [])
    ensures |payload| < 0xFFFC && |s.recvBuffer + data| > BufferCeiling ==>
              Receive(s, data, pongFails) == Received(Session([], Idle), 0, [])
    ensures |payload| >= 0xFFFC ==> Receive(s, data, pongFails) == ReceiveUndefined
  {
    var buf := s.recvBuffer + data;
    MidLengthPrefixNeverCompletes(b0, payload, rest, buf);
    assert buf[0..] == buf;
  }

  /**
   * What follows the discard: the reads after it, which bring the rest of
   * the same frame's payload, are handled exactly as by a handler that
   * has just started, so payload bytes are decoded as frames.
   */
  lemma MidLengthTailReadAsFrames(s: Session, data: seq<byte>, pongFails: set<nat>, ds: seq<Delivery>,
                                  b0: byte, payload: seq<byte>, rest: seq<byte>)
    requires |data| > 0
    requires 0x8000 <= |payload| < 0xFFFC && |rest| < TwoTo64 - 0x1_0000
    requires BufferCeiling < |s.recvBuffer + data| && s.recvBuffer + data <= EncodeFrame(b0, payload) + rest
    ensures Handler(s, [Delivery(Data(data), pongFails)] + ds) == Handler(Session([], Idle), ds)
  {
    MidLengthFrameDiscarded(s, data, pongFails, b0, payload, rest);
    var all := [Delivery(Data(data), pongFails)] + ds;
    assert all[0] == Delivery(Data(data), pongFails) && all[1..] == ds;
    var h := Handler(Session([], Idle), ds);
    match h
    case Ended(_, effs) => assert [] + effs == effs;
    case Waiting(_, effs) => assert [] + effs == effs;
    case HandlerUndefined =>
  }

  /** A masked header is skipped by its two bytes, with nothing dispatched. */
  lemma MaskedHeaderSkipped(b0: byte, b1: byte, rest: seq<byte>, r: State, pongFails: set<nat>, sent: nat)
    requires MaskBit(b1)
    ensures Pass([b0, b1] + rest, r, pongFails, sent) == AfterPass(2, [], Pass(rest, r, pongFails, sent))
  {
    assert ([b0, b1] + rest)[2..] == rest;
  }

  /** Whether the frame at the head of `w` is a complete Close frame. */
  predicate CloseAtHead(w: seq<byte>)
  {
    var d := Decode(w);
    d.Complete? && d.frame.opcode == Close
  }

  /**
   * How the end of the two-thread loop relates to the end of the
   * multi-socket loop on the same window `w`: identical where the latter
   * stops or fails, and stopped in front of a Close frame, with the same
   * effects, where the latter drops the connection.
   */
  predicate Agree(w: seq<byte>, e: ScanEnd, p: PassEnd)
  {
    && (e.Stopped? ==> p == Halted(e.processed, e.reasm, e.effects))
    && (e.Undefined? ==> p.PassUndefined?)
    && (e.Closed? ==> p.Halted? && p.effects == e.effects && p.processed <= |w| && CloseAtHead(w[p.processed..]))
  }

  /**
   * The two receive loops agree while no Pong send fails and the
   * multi-socket entry is flagged connected: on the same
   * bytes and reassembly state they consume the same bytes, reach the
   * same state and dispatch the same effects, except that where the
   * multi-socket loop drops the connection at a Close frame the
   * two-thread loop stops in front of it, having dispatched the same
   * effects.
   */
  lemma {:induction false} PassAgreesWithScan(w: seq<byte>, r: State, sent: nat)
    ensures Agree(w, Scan(w, r, true), Pass(w, r, {}, sent))
    decreases |w|, 2
  {
    match Decode(w)
    case NeedMore =>
    case LengthWraps =>
    case Masked => AgreesAfter(w, 2, r, [], r, sent, sent);
    case Complete(f, n) => AgreesAtFrame(w, r, sent);
  }

  /** `PassAgreesWithScan` when a complete frame is at the head. */
  lemma {:induction false} AgreesAtFrame(w: seq<byte>, r: State, sent: nat)
    requires Decode(w).Complete?
    ensures Agree(w, Scan(w, r, true), Pass(w, r, {}, sent))
    decreases |w|, 1
  {
    var f := Decode(w).frame;
    var n := Decode(w).size;
    if IsData(f) {
      var st := Reassemble(r, f);
      assert ProcessFrame(r, f) == Continue(st.state, Printed(st));
      AgreesAfter(w, n, r, Printed(st), st.state, sent, sent);
    } else if f.opcode == Ping {
      if 2 + |f.payload| <= PongFrameCapacity {
        assert ProcessFrame(r, f) == Continue(r, [Send(PongFrame(f.payload))]);
        AgreesAfter(w, n, r, [Send(PongFrame(f.payload))], r, sent, sent + 1);
      } else {
        assert ProcessFrame(r, f) == PongOverflow;
      }
    } else if f.opcode == Close {
      assert ProcessFrame(r, f) == CloseReceived;
      assert w[0..] == w;
    } else {
      assert ProcessFrame(r, f) == Continue(r, []);
      AgreesAfter(w, n, r, [], r, sent, sent);
    }
  }

  /** The inductive step of `PassAgreesWithScan`: both loops resumed `n` bytes on after effects `pre`. */
  lemma {:induction false} AgreesAfter(w: seq<byte>, n: nat, r: State, pre: seq<Effect>, r': State, sent: nat, sent': nat)
    requires 0 < n <= |w|
    requires Scan(w, r, true) == After(n, pre, Scan(w[n..], r', true))
    requires Pass(w, r, {}, sent) == AfterPass(n, pre, Pass(w[n..], r', {}, sent'))
    ensures Agree(w, Scan(w, r, true), Pass(w, r, {}, sent))
    decreases |w|, 0
  {
    PassAgreesWithScan(w[n..], r', sent');
    AgreeAfter(w, n, pre, Scan(w[n..], r', true), Pass(w[n..], r', {}, sent'));
  }

  /** Agreement on the rest of the window carries over to the whole window. */
  lemma AgreeAfter(w: seq<byte>, n: nat, pre: seq<Effect>, e: ScanEnd, p: PassEnd)
    requires n <= |w| && Agree(w[n..], e, p)
    ensures Agree(w, After(n, pre, e), AfterPass(n, pre, p))
  {
    if e.Closed? {
      SliceOfSlice(w, n, p.processed);
    }
  }
}

=== FILE: wss_client.dfy ===
/**
 * The small helpers of the io_uring client (clientWSS.cpp): a frame
 * parser that only knows the 7-bit length, the matching Text framer,
 * and the substring search that pulls the price out of an aggTrade
 * message.
 */
module WssClient {
  import opened Wrappers
  import opened Bytes
  import opened FrameCodec

  /** What `parse_ws_frame` reports, with the bytes it copies into `payload`. */
  datatype WsParsed =
    | TextPayload(payload: seq<byte>)   // returns 0
    | PingPayload(payload: seq<byte>)   // returns 1
    | Unsupported                       // returns -1

  /** The `int` the C function returns. */
  function Code(p: WsParsed): int
  {
    match p
    case TextPayload(_) => 0
    case PingPayload(_) => 1
    case Unsupported => -1
  }

  /**
   * `parse_ws_frame(buf, len, payload, payload_len)`: FIN must be set and
   * the 7-bit length must fit in the bytes after the two-byte header. The
   * length is taken literally (126 and 127 are not escapes) and the mask
   * bit is ignored. Only Text and Ping are accepted.
   */
  function ParseWsFrame(buf: seq<byte>): (r: WsParsed)
    ensures |buf| < 2 ==> r == Unsupported
    ensures r.TextPayload? <==>
              |buf| >= 2 && FinBit(buf[0]) && LengthField(buf[1]) <= |buf| - 2 && OpcodeOf(buf[0]) == Text
    ensures r.PingPayload? <==>
              |buf| >= 2 && FinBit(buf[0]) && LengthField(buf[1]) <= |buf| - 2 && OpcodeOf(buf[0]) == Ping
    ensures !r.Unsupported? ==> 2 + |r.payload| <= |buf| && r.payload == buf[2..2 + LengthField(buf[1])]
  {
    if |buf| < 2 then Unsupported
    else
      var len := LengthField(buf[1]);
      if !FinBit(buf[0]) || len > |buf| - 2 then Unsupported
      else if OpcodeOf(buf[0]) == Text then TextPayload(buf[2..2 + len])
      else if OpcodeOf(buf[0]) == Ping then PingPayload(buf[2..2 + len])
      else Unsupported
  }

  /** The frame `send_ws_text` writes: none for more than 125 bytes, else FIN and Text, the length, the data. */
  function WsTextFrame(data: seq<byte>): (f: Option<seq<byte>>)
    ensures f.None? <==> |data| > 125
    ensures f.Some? ==> |f.value| == 2 + |data| && f.value[0] == 0x81 && f.value[1] == |data| && f.value[2..] == data
    ensures f.Some? ==> f.value == TextFrame(data)
  {
    if |data| > 125 then None else Some([0x81, |data|] + data)
  }

  /**
   * `send_ws_text` given what the stream's `write` returned: 0 only when
   * the frame was short enough to build and was written whole.
   */
  function SendWsText(data: seq<byte>, written: int): (code: int)
    ensures code == 0 <==> |data| <= 125 && written == 2 + |data|
    ensures code == 0 <==> WsTextFrame(data).Some? && written == |WsTextFrame(data).value|
    ensures code != 0 ==> code == -1
  {
    if |data| > 125 then -1
    else if written != 2 + |data| then -1
    else 0
  }

  /**
   * `send_ws_text` succeeds exactly when it could build the frame and the
   * stream took all of that frame's bytes.
   */
  lemma SendWsTextWritesFrame(data: seq<byte>, written: int)
    ensures SendWsText(data, written) == 0 <==> WsTextFrame(data).Some? && written == |WsTextFrame(data).value|
  {
  }

  /** Within 125 bytes the two Text framers of the clients build the same bytes. */
  lemma WsTextFrameIsTextFrame(data: seq<byte>)
    requires |data| <= 125
    ensures WsTextFrame(data) == Some(TextFrame(data))
  {
  }

  /** Round trip: parsing the frame `send_ws_text` builds gives back its data as a Text payload, with code 0. */
  lemma WsTextRoundTrip(data: seq<byte>, rest: seq<byte>)
    requires |data| <= 125
    ensures var p := ParseWsFrame(WsTextFrame(data).value + rest);
            p == TextPayload(data) && Code(p) == 0
  {
    var buf := WsTextFrame(data).value + rest;
    assert buf[2..2 + |data|] == data;
  }

  /**
   * The 7-bit length is read literally: a length field of 126 or 127
   * is a payload of that many bytes, not an escape to a longer length.
   */
  lemma ExtendedLengthTakenLiterally(buf: seq<byte>)
    requires |buf| >= 2 && FinBit(buf[0]) && OpcodeOf(buf[0]) == Text
    requires LengthField(buf[1]) >= 126 && |buf| >= 2 + LengthField(buf[1])
    ensures ParseWsFrame(buf) == TextPayload(buf[2..2 + LengthField(buf[1])])
    ensures |ParseWsFrame(buf).payload| >= 126
  {
  }

  /**
   * Against the receive loops' decode: on an unmasked frame with FIN set
   * and a 7-bit length below 126, the parser accepts a Text or Ping frame
   * exactly when the decode finds it complete, with the same payload.
   */
  lemma ParseWsAgreesWithDecode(buf: seq<byte>)
    requires |buf| >= 2 && !MaskBit(buf[1]) && FinBit(buf[0]) && LengthField(buf[1]) < 126
    requires OpcodeOf(buf[0]) == Text || OpcodeOf(buf[0]) == Ping
    ensures var d := Decode(buf);
            && (!ParseWsFrame(buf).Unsupported? <==> d.Complete?)
            && (d.Complete? ==> ParseWsFrame(buf).payload == d.frame.payload)
  {
    DecodeOutcome(buf);
  }

  /** The key `extract_price` looks for: `"p":"`. */
  const PriceKey: string := "\"p\":\""

  /** Size of the static `price[32]` buffer, terminator included. */
  const PriceCapacity: nat := 32

  /** `key` occurs in `s` starting at index `j`. */
  predicate OccursAt(s: string, key: string, j: int)
  {
    0 <= j && j + |key| <= |s| && s[j..j + |key|] == key
  }

  /** `i` is where `strstr` finds `key` in `s`: an occurrence with none before it. */
  predicate FirstOccurrence(s: string, key: string, i: int)
  {
    OccursAt(s, key, i) && forall j :: 0 <= j < i ==> !OccursAt(s, key, j)
  }

  /**
   * `strstr(s + from, key)` as an index into `s`: the first occurrence of
   * `key` at or after `from`.
   */
  function IndexOf(s: string, key: string, from: nat): (r: Option<nat>)
    requires from <= |s|
    ensures r.Some? ==> from <= r.value && OccursAt(s, key, r.value)
    ensures r.Some? ==> forall j :: from <= j < r.value ==> !OccursAt(s, key, j)
    ensures r.None? ==> forall j :: from <= j ==> !OccursAt(s, key, j)
    decreases |s| - from
  {
    if OccursAt(s, key, from) then Some(from)
    else if from == |s| then None
    else IndexOf(s, key, from + 1)
  }

  /**
   * The value after a key found at `i` closes `k` characters on: the
   * first `"` after the key is `k` characters past its end.
   */
  predicate ClosesAt(s: string, i: int, k: int)
  {
    var start := i + |PriceKey|;
    0 <= i && 0 <= k && start + k < |s| && s[start + k] == '"'
    && forall m :: start <= m < start + k ==> s[m] != '"'
  }

  /** A quote at `j` is an occurrence of the one-character key `"`. */
  lemma QuoteOccurs(s: string, j: int)
    requires 0 <= j < |s|
    ensures OccursAt(s, "\"", j) <==> s[j] == '"'
  {
    assert s[j..j + 1] == [s[j]];
  }

  /**
   * `extract_price(json)` on the characters of a C string before its
   * terminator: the text between the first `"p":"` and the next `"`,
   * provided it fits the 32-byte buffer with its terminator.
   */
  function ExtractPrice(json: string): (r: Option<string>)
    requires '\0' !in json
    // a price is found only right after the first key and up to the first quote after it
    ensures r.Some? ==>
              exists i :: FirstOccurrence(json, PriceKey, i) && ClosesAt(json, i, |r.value|)
                          && r.value == json[i + |PriceKey|..i + |PriceKey| + |r.value|]
    ensures r.Some? ==> |r.value| < PriceCapacity && '"' !in r.value
    // no key, no price
    ensures (forall i :: !OccursAt(json, PriceKey, i)) ==> r.None?
  {
    match IndexOf(json, PriceKey, 0)
    case None => None
    case Some(i) =>
      var start := i + |PriceKey|;
      match IndexOf(json, "\"", start)
      case None => None
      case Some(e) =>
        if e - start >= PriceCapacity then None
        else
          var v := json[start..e];
          QuoteOccurs(json, e);
          assert forall m :: start <= m < e ==> json[m] != '"' by {
            forall m | start <= m < e ensures json[m] != '"' {
              QuoteOccurs(json, m);
            }
          }
          assert FirstOccurrence(json, PriceKey, i);
          assert ClosesAt(json, i, |v|);
          Some(v)
  }

  /**
   * The other direction: wherever the first key is followed by a closing
   * quote, a value shorter than 32 characters is returned and a longer
   * one is refused; a key with no quote after it gives nothing.
   */
  lemma ExtractPriceComplete(json: string, i: int)
    requires '\0' !in json && FirstOccurrence(json, PriceKey, i)
    ensures forall k :: ClosesAt(json, i, k) ==>
              ExtractPrice(json) == (if k < PriceCapacity then Some(json[i + |PriceKey|..i + |PriceKey| + k]) else None)
    ensures (forall k :: !ClosesAt(json, i, k)) ==> ExtractPrice(json) == None
  {
    var start := i + |PriceKey|;
    var found := IndexOf(json, PriceKey, 0);
    assert found == Some(i);
    var q := IndexOf(json, "\"", start);
    if q.Some? {
      var e := q.value;
      QuoteOccurs(json, e);
      forall k | ClosesAt(json, i, k) ensures k == e - start {
        QuoteOccurs(json, start + k);
      }
    } else {
      forall k | 0 <= k ensures !ClosesAt(json, i, k) {
        if start + k < |json| {
          QuoteOccurs(json, start + k);
        }
      }
    }
  }
}
